=== FILE: README.md ===
# ShredSpace updater, modelled in Dafny

ShredSpace's text-edition updater (`update.py`) keeps a library of game
descriptors in `games.json`. Each descriptor is a JSON object with at least
`displayName`, `name` and `url`. The updater offers three menu actions:

- download a new game: fetch a descriptor and add it to the library unless an
  equal one is already there;
- update games: download each selected game's ZIP archive and unpack it into
  `app/<name>`;
- uninstall a game: remove its folder and drop it from the library.

Started with a `shredspace://` link, it rewrites the link to `https://`, adds
that descriptor and updates the library's last game. It also writes a `.reg`
file that registers the `shredspace` URL protocol with Windows. `updator.py`
is a stand-alone updater: it has the same selection and download
code and no library editing.

The model is split into these modules:

| module | what it holds |
|---|---|
| `Json` | the JSON values the library holds, and Python's `==` on them (`True == 1`) |
| `PyStr` | the Python string operations the updater relies on: `split`, `strip`, `int()`, `in`, `replace` |
| `Selection` | the menus: parsing `1,3` into indices, picking games, Python's negative indexing |
| `Download` | `download_and_unzip`: the file name, the default folder, the content-type guard, the actions taken in order, and the loop over selected games |
| `Registry` | the backslash escaping of the `.reg` file and what Windows reads back from it |
| `Library` | the library as a class (`games` plus the `manifest` last saved), the three actions, and the `shredspace://` path |
| `Updator` | `updator.py`'s main block, proved to be `updateGames()` on a non-empty library |

The network, the disk and the user are parameters:

- The response to a URL is a `Response` value.
- A descriptor fetch is a `DescriptorFetch` value.
- Whether a folder can be deleted is a boolean.
- What the user types is a string.
- The download routine returns the file-system actions it completes (`Effect`), in order, with a `Status`.

## Model

| member | source | states |
|---|---|---|
| Json.PyEqSymmetric | update.py:144 | Python `==` on JSON values is symmetric |
| Json.PyEqTransitive | update.py:144 | Python `==` on JSON values is transitive |
| Json.BoolEqualsOne | update.py:144 | `{"v": true}` and `{"v": 1}` are different values, yet `in` treats them as the same game |
| Json.PyEq | update.py:144 | the `==` that `in` uses: null and strings equal only themselves, lists only lists, dicts only dicts; bools and ints compare as numbers (`True` as 1, `False` as 0) and equal nothing else |
| Json.PyEqReflexive | update.py:144 | every descriptor is `==` to itself, so `in` finds a descriptor that is present |
| Json.Field | update.py:175 | `value[key]` succeeds exactly when `value` is an object holding `key`, and returns that member |
| PyStr.StripLeft | update.py:93 | removes exactly the leading whitespace |
| PyStr.StripRight | update.py:93 | removes exactly the trailing whitespace |
| PyStr.Strip | update.py:93 | the result neither starts nor ends with whitespace, and text without whitespace is unchanged |
| PyStr.StripPadded | update.py:93 | `strip` gives back a token padded with any whitespace, which is why ` 3 ` selects game 3 |
| PyStr.Split | update.py:93 | `split(',')` yields at least one piece and no piece holds a comma |
| PyStr.JoinSplit | update.py:93 | joining the pieces with the separator gives back the input |
| PyStr.SplitJoin | update.py:93 | splitting pieces that were joined gives the pieces back |
| PyStr.SplitConcat | update.py:93 | splitting `u,v` is splitting `u` followed by splitting `v` |
| PyStr.SplitAtFirst | update.py:93 | splitting at the first separator gives the text before it, then the split of the rest |
| PyStr.SplitNoSep | update.py:93 | text without a separator is one piece |
| PyStr.SplitLast | update.py:26 | the last piece is the text after the last separator, or the whole text if there is none |
| PyStr.ParseInt | update.py:93 | `int()` succeeds exactly on an optional `+` or `-` followed by one or more ASCII digits, of any length; a result carries the sign of its text |
| PyStr.ParseFormat | update.py:93 | `int()` reads back every integer written in decimal |
| PyStr.ParseLeadingZero | update.py:93 | a leading zero does not change the value: `int("07") == 7` |
| PyStr.ParsePlus | update.py:93 | a leading `+` does not change the value: `int("+3") == 3` |
| PyStr.Contains | update.py:34 | `p in t` holds exactly when `p` occurs at some position of `t` |
| PyStr.ReplaceAll | update.py:234 | `replace` keeps text shorter than the pattern, and never lengthens text when the replacement is no longer than the pattern |
| PyStr.ReplaceAbsent | update.py:234 | `replace` leaves text without the pattern unchanged |
| PyStr.ReplaceAtFirst | update.py:234 | the first occurrence of the pattern, wherever it is, becomes the replacement; the text before it is kept and the text after it is replaced in turn |
| Selection.Menu | update.py:84-86 | printing the menu succeeds exactly when every entry has a `displayName`, and lists those names in order |
| Selection.ParseTokens | update.py:93 | a successful parse yields one index per token |
| Selection.ParseIndices | update.py:92-93 | a successful parse of the typed text yields one index per comma-separated piece |
| Selection.AskForSelection | update.py:83-98 | the update selection has no more games than pieces typed, and holds only library entries |
| Selection.AskUninstall | update.py:100-115 | the uninstall indices are the parsed values, unfiltered: one per piece typed, negative and out-of-range ones kept; a piece that is not a number gives none at all |
| Selection.AskUninstallParsed | update.py:109-115 | whatever parses is returned as it is, one index per piece |
| Selection.ParseTokensFails | update.py:92-95 | parsing fails exactly when some token, once stripped, is not an integer |
| Selection.ParseTokensValues | update.py:93 | a successful parse holds `int(t.strip()) - 1` for each token, in order |
| Selection.BadTokenSelectsNothing | update.py:92-95 | one bad token empties both the update selection and the uninstall list |
| Selection.EmptyInputSelectsNothing | update.py:90-98 | pressing Enter selects nothing |
| Selection.Pick | update.py:97 | the selection is no longer than the indices and holds only library entries |
| Selection.PickInRange | update.py:97 | indices all in range select `lib[i]` for each, in order |
| Selection.PickOutOfRange | update.py:97 | indices all out of range select nothing, negatives included |
| Selection.PickAppend | update.py:97 | the selection of `a` then `b` is the selection of `a` followed by that of `b` |
| Selection.ParseTyped | update.py:110-112 | typing the numbers `k1,…,kn` yields the indices `k1-1,…,kn-1` |
| Selection.SelectTyped | update.py:92-98 | typing numbers in range `1..len` selects `lib[k-1]` for each, in typed order, repeats kept |
| Selection.SelectTypedPair | update.py:92-98 | typing two numbers in range selects those two games, in typed order |
| Selection.SelectOneAndThree | update.py:90-98 | the prompt's own example `1,3` selects the first and third games |
| Selection.SelectFiveOfThree | update.py:97 | a number past the end selects nothing |
| Selection.PyIndex | update.py:175-178 | a valid Python index `-len <= i < len` denotes the position `i` or `len + i` |
| Selection.UninstallZeroMeansLast | update.py:110 | typing `0` gives index `-1`, which is valid and denotes the last game |
| Download.ZipFilename | update.py:26 | the archive's file name has no `/` |
| Download.ZipFilenameAfterLastSlash | updator.py:14 | the file name is the suffix of the URL after its last `/`, or the whole URL |
| Download.ZipFilenameOf | update.py:26 | for `prefix/name`, the file name is `name` |
| Download.SplitExt | update.py:49 | root plus extension is the name; an extension is split off exactly when the last path part has a dot preceded by something other than dots, and it is one dot and no other |
| Download.DefaultFolder | update.py:48-49 | the default folder is the file name up to its last dot when something other than dots precedes that dot, else the whole file name; it has no `/` |
| Download.DefaultFolderFoo | updator.py:36-37 | `…/foo.zip` is saved as `foo.zip` and unpacked into `foo` |
| Download.DefaultFolderTarGz | update.py:49 | only the last extension goes: `a.tar.gz` becomes `a.tar` |
| Download.DefaultFolderDotFile | update.py:49 | `.zip` has no extension, so it is its own folder name |
| Download.PathJoin | update.py:27 | `os.path.join` ends with its second part and keeps an absolute second part alone; otherwise it inserts one `/` after a first part that is non-empty and does not end in `/`, and nothing after an empty one or one ending in `/` |
| Download.AcceptsZip | update.py:34 | the guard passes exactly when the `Content-Type` header holds `zip`; a missing header counts as empty |
| Download.ContentTypeExamples | updator.py:22-23 | no header and `application/ZIP` are refused; `application/zip` and `application/x-zip-compressed` pass |
| Download.ExtractFolder | update.py:48-51 | a null folder name becomes the file name without its extension, a string one is used as given, either joined under the save folder; any other type makes `os.path.join` raise |
| Download.DownloadAndUnzip | update.py:22-25 | the save folder is made first, and an empty one raises before any action |
| Download.DownloadRefused | update.py:22-46 | an empty save folder raises; a failed request or refused type stops after the save folder is made, writing nothing; a file name that is a folder (empty, `.`, `..`) raises before writing |
| Download.DownloadOutcome | update.py:22-66 | success needs the guard, a complete body, a valid archive, a folder name that is null or a string, and an extract folder that is neither the archive nor below it; it then writes, unpacks and deletes the archive, in that order |
| Download.DownloadKeepsArchive | update.py:56-66 | the archive is deleted only by a download that succeeds |
| Download.InstallFooExample | updator.py:10-54 | a good response for `…/foo.zip` gives the five actions on `app/foo.zip` and `app/foo` |
| Download.ExtractIntoArchive | update.py:48-58 | `…/foo` unpacked into `foo`, by default or by name, finds the archive where the folder should be and raises, leaving the archive on disk |
| Download.Arguments | update.py:165 | `game['url']` and `game['name']` are looked up before the call, and both must be present |
| Download.Install | update.py:165 | a `url` that is not a string raises right after the save folder is made; an install needs a string `url` and a null or string `name`, and unpacks into `app/<name>`, or the default folder for null |
| Download.BadFolderName | update.py:48-51 | a `name` that is neither null nor a string fails only at `os.path.join`: a failed request or refused type still returns normally |
| Download.ReportsOfGames | update.py:164-165 | each report of a run is the download of one of the games run over |
| Download.Loop | update.py:164-165 | the loop reports at most one download per game, and one for every game when it finishes |
| Download.Dispatch | update.py:162-165 | the run over the selected games reports at most one download per game, and one for every game when it finishes |
| Download.DispatchReports | update.py:164-165 | downloads are attempted in selection order, each from the game's `url` into a folder given by its `name`, and only for games holding both keys |
| Download.LoopReportAt | update.py:164-165 | the `j`-th report is the download of the `j`-th game |
| Download.DownloadAll | update.py:164-165 | the loop over the selected games makes exactly the downloads `Dispatch` specifies, in order, and stops at the first exception |
| Download.LoopCrashIsFinal | update.py:164-165 | once a download raises, the loop over any further games is the same run |
| Download.DispatchCrashIsFinal | update.py:164-165 | once a game raises, later games are never reached |
| Download.LoopCrashNamesGame | update.py:164-165 | over games holding both keys, a crash is the download of the first game not reported, with the actions it completed |
| Download.LoopFinishedNoneRaised | update.py:164-165 | a run that finishes met no download that raised |
| Download.DispatchReachesAll | update.py:164-165 | for games holding both keys the run finishes exactly when no download raises, and a crash names the game that raised and the actions it completed |
| Registry.EscapeBackslashes | update.py:200 | every backslash is doubled and nothing else is added |
| Registry.EscapeRoundTrip | update.py:200 | reading an escaped path back gives the original path |
| Registry.UnescapeAfterEscape | update.py:200 | an escaped path reads back as itself whatever text follows it |
| Registry.RegFile | update.py:203-215 | the file opens with the registry editor header and ends with the `@=` line that sets the open command |
| Registry.CommandValue | update.py:214 | the registered command reads back as the quoted executable path followed by `"%1"` |
| Registry.TailReadsBack | update.py:214 | the tail `\" \"%1\"` reads back as `" "%1"` |
| Library.InLibrary | update.py:144 | `d in lib` finds an entry identical to `d`, and finds null or a string only as itself |
| Library.AddEntry | update.py:144-148 | afterwards the descriptor is in the library and earlier entries keep their places; the library is unchanged exactly when an equal descriptor was present, and otherwise gains it at the end |
| Library.AddIdempotent | update.py:144-148 | adding the same descriptor twice adds it once |
| Library.AddEqualDescriptor | update.py:144 | a descriptor equal to one present under Python equality is not added |
| Library.AddKeepsDistinct | update.py:144-148 | adding keeps the library free of equal entries |
| Library.AddOutcomeOf | update.py:136-151 | a descriptor is added exactly when it was fetched, decoded and not present; it is a duplicate exactly when it was present |
| Library.Latest | update.py:158 | latest mode selects the single last entry |
| Library.UpdateOf | update.py:154-167 | `updateGames` downloads at most once in latest mode and at most once per piece typed otherwise, and only library games |
| Library.UpdateLatestEmpty | update.py:157-158 | latest mode on an empty library crashes before any download |
| Library.UpdateLatestOnly | update.py:157-165 | latest mode attempts one download, the last game's, and finishes exactly when it does not raise |
| Library.UpdateSelected | update.py:159-165 | with a printable menu, the games typed are the games downloaded |
| Library.UpdateTyped | update.py:154-165 | typed numbers in range update `lib[k-1]` for each, in order; the run finishes exactly when none raises |
| Library.RemoveAt | update.py:178 | `pop(k)` removes entry `k` only: earlier entries stay put, later ones move up one, and the multiset loses exactly that entry |
| Library.RemoveKeepsDistinct | update.py:178 | removing keeps the library free of equal entries |
| Library.UninstallOf | update.py:169-187 | an entry goes exactly when one game was selected and its folder could be removed; otherwise the library is unchanged |
| Library.UninstallOne | update.py:171-178 | one valid index with a named entry removes the entry at Python position `i`, negatives included |
| Library.UninstallTyped | update.py:169-178 | typing the number `k` uninstalls `lib[k-1]` |
| Library.UninstallZero | update.py:175-178 | typing `0` uninstalls the last game |
| Library.UninstallRefused | update.py:172-187 | with the menu shown, a piece that is not a number ends as "nothing selected", and several numbers, valid or not, as "one game at a time" |
| Library.UninstallUnchanged | update.py:172-186 | bad input, several numbers, an index outside `-len..len-1` or a folder that cannot be removed leave the library as it was |
| Library.GameLibrary.constructor | update.py:230 | the library and the saved file both hold what was loaded |
| Library.GameLibrary.Save | update.py:126-129 | the saved file holds the library, which is unchanged |
| Library.GameLibrary.AddGame | update.py:131-151 | the library gains the descriptor exactly as `AddOutcomeOf` says and is saved only then; no equal entries appear |
| Library.GameLibrary.UpdateGames | update.py:154-167 | the loop performs the run `UpdateOf` specifies: the same downloads in the same order, stopping at the first that raises |
| Library.GameLibrary.UninstallGame | update.py:169-187 | the library becomes what `UninstallOf` says, and is saved unless printing the menu raised |
| Library.RewriteScheme | update.py:234 | the rewritten link is no longer than the link |
| Library.RewriteKeepsFront | update.py:234 | a link that starts with `shredspace://` starts with `https://` once rewritten, whatever follows |
| Library.RewriteAtFirst | update.py:234 | the first `shredspace://`, wherever it is in the link, becomes `https://`; the text before it is kept and the rest is rewritten in turn |
| Library.RewriteKeepsEmptiness | update.py:234 | the rewritten link is empty exactly when the link is |
| Library.LinkUrl | update.py:131-135 | `downloadGames` fetches the rewritten link when the argument is not empty, and the URL typed at the prompt when it is |
| Library.RewriteLeadingScheme | update.py:234 | `shredspace://rest` becomes `https://rest` |
| Library.NoSchemeLeft | update.py:234 | no `shredspace://` is left after the rewrite |
| Library.RunWithUrl | update.py:231-235 | the descriptor at the rewritten link (or, for an empty argument, at the URL typed at the prompt) is added, the last game is updated, and the library is saved on the way out unless that update raised |
| Library.UrlForKnownGameUpdatesLast | update.py:231-235 | a link to a game already in the library `[a, b]` is a duplicate, and the update then goes to `b` |
| Library.UrlSelection | update.py:231-235 | the intended selection: at most one game, none when the fetch failed, and only a game equal to the linked one |
| Library.IntendedUpdatesLinkedGame | update.py:231-235 | the intended URL path downloads at most once, never after a failed fetch, and only the linked game |
| Updator.UpdatorRun | updator.py:98-116 | an empty library means no download; otherwise at most one download per piece typed, each a library game's |
| Updator.UpdatorIsUpdate | updator.py:105-116 | on a non-empty library the updator does what `updateGames()` does; on an empty one it downloads nothing |
| Updator.UpdatorTyped | updator.py:78-84 | typed numbers in range download `lib[k-1]` for each, in order, into `app/<name>` |
| Updator.UpdatorBadToken | updator.py:78-81 | a token that is not an integer means no download |

## Left out

- HTTP: `requests.get`, `raise_for_status` and the chunked write. A response is an input value that says whether the request failed, the `Content-Type` header, and whether the body arrived whole.
- ZIP archives: whether an archive is valid is part of the `Response` value. Extraction is one `ExtractAll` action.
- File-system calls are listed as actions, not performed. `EnsureDir` means "create the folder unless it exists", which is what the `os.path.exists` test and `os.makedirs` do together.
- JSON reading and writing: `process_json_file` and `json.dump`. The loaded library is the constructor's argument. The saved file is the `manifest` field. The library is assumed to be a list; a top-level object is not modelled.
- JSON numbers are integers. Floats and their equality with integers (`1.0 == 1`) are not modelled.
- Console output is left out. The main menu's `int(input())` is also left out: it crashes on text that is not a number, and it loops until Quit.
- Flask's `render_template` and the write of `app/index.html`, in both files. The model sees nothing of the HTML.
- Writing `register_protocol.reg` to disk, and the value of `BASE_DIR`. Only the text of the file is modelled.
- The `os.path.exists` test before `shutil.rmtree`. A failed removal is the `removalOk` flag.
- Download.DownloadAndUnzip, Download.DownloadOutcome: what is already on disk is not modelled. The save folder is assumed to be a folder, and nothing is assumed at the archive path or the extract folder's path before the run. Python raises when a folder already sits at the archive path, or a file at the extract folder's path.
- Download.DownloadAndUnzip, Download.DownloadOutcome: paths are compared as text, so two spellings of one path (`app/./foo` and `app/foo`) count as different. Extracting an archive with no members into the archive file itself does not raise in Python; the model reports `Raised` there.
- PyStr.ParseInt: only an optional sign and ASCII digits are read. Python's `int()` also accepts `_` between digits and non-ASCII digits. Those inputs are refused here, so they select nothing.
- PyStr.ParseInt: the limit on the number of digits that `int()` converts is not modelled. CPython 3.11 and later, and the 3.7-3.10 security releases, raise ValueError past 4300 digits by default. The limit is interpreter configuration: it can be changed with `sys.set_int_max_str_digits` or `PYTHONINTMAXSTRDIGITS`, or switched off. Here a token of any length parses. So a piece of more than 4300 digits, which empties the whole selection in those interpreters, selects its game here.
- Registry.CommandValue: the read-back treats a quote with no backslash before it as itself. In a `.reg` file such a quote ends the value, so the read-back is what the registry editor sees only for an executable path without `"`. Windows file names cannot contain `"`.
- Download.PathJoin and Download.SplitExt: these follow POSIX. On Windows, `\` would also separate path parts.

## Findings

| source | as written | input that shows it | evidently intended | confidence | as-written member | corrected member |
|---|---|---|---|---|---|---|
| update.py:231-235 | after adding the linked descriptor, `updateGames(latest=True)` always updates the library's last entry | library `[a, b]` and a `shredspace://` link whose descriptor is `a`: `a` is a duplicate, and `b` is downloaded instead | update the game the link names, and nothing when the descriptor could not be fetched | medium, not executed | Library.UrlForKnownGameUpdatesLast | Library.IntendedUpdatesLinkedGame |

=== FILE: download.dfy ===
/**
 * `download_and_unzip`, identical in update.py and updator.py apart from its
 * messages, and the loop both files run over the selected games. The network
 * and the file system are not modelled: the response to each URL is an input,
 * and the function answers with the file-system actions it would take.
 */
module Download {
  import opened Wrappers
  import opened Json
  import opened PyStr

  /** What fetching an archive URL turned out to be. */
  datatype Response =
    | Unreachable
      // connection failure or non-success status: a RequestException
    | Reply(contentType: Option<string>, streamed: bool, validZip: bool)
      // `streamed`: the body arrived whole; `validZip`: it is a ZIP archive

  /** A file-system action, in the order the function performs them. */
  datatype Effect =
    | EnsureDir(path: string)            // `os.makedirs` unless it already exists
    | WriteFile(path: string)            // the streamed archive, chunk by chunk
    | ExtractAll(archive: string, into: string)
    | RemoveFile(path: string)

  datatype Status =
    | FetchFailed    // RequestException, caught
    | NotZip         // the ValueError raised for the content type, caught
    | BadZip         // zipfile.BadZipFile, caught; the archive is left on disk
    | Installed
    | Raised         // an exception the function does not catch

  datatype Report = Report(status: Status, effects: seq<Effect>)

  /** The archive's file name: `url.split('/')[-1]`. */
  function ZipFilename(url: string): (name: string)
    ensures '/' !in name
  {
    var pieces := Split(url, '/');
    assert pieces[|pieces| - 1] in pieces;
    pieces[|pieces| - 1]
  }

  /** The file name is what follows the last `/` of the URL (all of it if there is none). */
  lemma ZipFilenameAfterLastSlash(url: string)
    ensures var name := ZipFilename(url);
      |name| <= |url| && url == url[..|url| - |name|] + name &&
      ('/' in url ==> url[|url| - |name| - 1] == '/')
  {
    SplitLast(url, '/');
    var name := ZipFilename(url);
    if |name| == |url| {
      assert url == name;
    }
  }

  /** For a URL `prefix/name`, the file name is `name`. */
  lemma ZipFilenameOf(prefix: string, name: string)
    requires '/' !in name
    ensures ZipFilename(prefix + "/" + name) == name
  {
    assert prefix + "/" + name == prefix + ['/'] + name;
    SplitConcat(prefix, '/', name);
    SplitNoSep(name, '/');
  }

  /** The last position of `c` in `s`, or -1: `s.rfind(c)`. */
  function LastIndexOf(s: string, c: char): (r: int)
    ensures -1 <= r < |s|
    ensures r >= 0 ==> s[r] == c
    ensures forall k :: r < k < |s| ==> s[k] != c
  {
    if s == [] then -1
    else if s[|s| - 1] == c then |s| - 1
    else LastIndexOf(s[..|s| - 1], c)
  }

  /**
   * `os.path.splitext(p)` (POSIX): the extension starts at the last dot of the
   * last path component, unless only dots precede that dot in the component.
   */
  function SplitExt(p: string): (r: (string, string))
    ensures r.0 + r.1 == p
    ensures r.1 == [] || (r.1[0] == '.' && '.' !in r.1[1..] && '/' !in r.1)
    ensures r.1 != [] <==>
      exists k, d :: LastIndexOf(p, '/') < k < d < |p| && p[k] != '.' && p[d] == '.'
    ensures r.1 != [] ==> |r.0| == LastIndexOf(p, '.')
  {
    var sepIndex := LastIndexOf(p, '/');
    var dotIndex := LastIndexOf(p, '.');
    ExtensionAtLastDot(p);
    if dotIndex > sepIndex && exists k :: sepIndex < k < dotIndex && p[k] != '.' then
      (p[..dotIndex], p[dotIndex..])
    else
      (p, [])
  }

  /** Helper of SplitExt: an extension is split off exactly when a non-dot of the last path part precedes a dot. */
  lemma {:induction false} ExtensionAtLastDot(p: string)
    ensures var sepIndex, dotIndex := LastIndexOf(p, '/'), LastIndexOf(p, '.');
      (dotIndex > sepIndex && exists k :: sepIndex < k < dotIndex && p[k] != '.') <==>
      (exists k, d :: sepIndex < k < d < |p| && p[k] != '.' && p[d] == '.')
    ensures var sepIndex, dotIndex := LastIndexOf(p, '/'), LastIndexOf(p, '.');
      dotIndex > sepIndex ==> p[dotIndex] == '.' && '.' !in p[dotIndex + 1..] && '/' !in p[dotIndex..]
  {
    var sepIndex, dotIndex := LastIndexOf(p, '/'), LastIndexOf(p, '.');
    assert (dotIndex > sepIndex && exists k :: sepIndex < k < dotIndex && p[k] != '.') ==>
      (exists k, d :: sepIndex < k < d < |p| && p[k] != '.' && p[d] == '.')
    by {
      if dotIndex > sepIndex && exists k :: sepIndex < k < dotIndex && p[k] != '.' {
        var k :| sepIndex < k < dotIndex && p[k] != '.';
        assert sepIndex < k < dotIndex < |p| && p[k] != '.' && p[dotIndex] == '.';
      }
    }
    assert (exists k, d :: sepIndex < k < d < |p| && p[k] != '.' && p[d] == '.') ==>
      (dotIndex > sepIndex && exists k :: sepIndex < k < dotIndex && p[k] != '.')
    by {
      if exists k, d :: sepIndex < k < d < |p| && p[k] != '.' && p[d] == '.' {
        var k, d :| sepIndex < k < d < |p| && p[k] != '.' && p[d] == '.';
        assert d <= dotIndex;
        assert sepIndex < k < dotIndex && p[k] != '.';
      }
    }
    if dotIndex > sepIndex {
      LastDotEndsPart(p, sepIndex, dotIndex);
    }
  }

  lemma LastDotEndsPart(p: string, sepIndex: int, dotIndex: int)
    requires sepIndex == LastIndexOf(p, '/') && dotIndex == LastIndexOf(p, '.') && dotIndex > sepIndex
    ensures p[dotIndex] == '.' && '.' !in p[dotIndex + 1..] && '/' !in p[dotIndex..]
  {
    var ext := p[dotIndex..];
    assert forall j :: 1 <= j < |ext| ==> ext[j] == p[dotIndex + j];
  }

  /**
   * The folder a URL's archive goes to when no name is given: the file name
   * up to its last dot when a character other than a dot precedes that dot,
   * and the whole file name otherwise.
   */
  function DefaultFolder(url: string): (folder: string)
    ensures '/' !in folder
    ensures var name := ZipFilename(url);
      (exists k, d :: 0 <= k < d < |name| && name[k] != '.' && name[d] == '.') ==>
        0 <= LastIndexOf(name, '.') && folder == name[..LastIndexOf(name, '.')]
    ensures var name := ZipFilename(url);
      !(exists k, d :: 0 <= k < d < |name| && name[k] != '.' && name[d] == '.') ==> folder == name
  {
    var name := ZipFilename(url);
    var parts := SplitExt(name);
    assert LastIndexOf(name, '/') == -1;
    assert forall c :: c in parts.0 ==> c in name;
    parts.0
  }

  /** Only the last extension goes: `a.tar.gz` extracts into `a.tar`. */
  lemma DefaultFolderTarGz()
    ensures DefaultFolder("https://h/a.tar.gz") == "a.tar"
  {
    var name := "a.tar.gz";
    assert '/' !in name;
    ZipFilenameOf("https://h", name);
    assert "https://h" + "/" + name == "https://h/a.tar.gz";
    assert name[6..] == "gz";
    LastIndexOfIs(name, '.', 5);
    assert LastIndexOf(name, '/') == -1;
    assert -1 < 0 < 5 && name[0] != '.';
    assert name[..5] == "a.tar";
  }

  /** A dot-file has no extension: `.zip` extracts into `.zip`. */
  lemma DefaultFolderDotFile()
    ensures SplitExt(".zip") == (".zip", "")
  {
    LastIndexOfIs(".zip", '.', 0);
    assert '/' !in ".zip";
  }

  lemma {:induction false} LastIndexOfIs(s: string, c: char, k: nat)
    requires k < |s| && s[k] == c && c !in s[k + 1..]
    ensures LastIndexOf(s, c) == k
  {
    if k < |s| - 1 {
      assert s[|s| - 1] == s[k + 1..][|s| - k - 2];
      assert s[..|s| - 1][k + 1..] == s[k + 1..|s| - 1];
      assert s[k + 1..|s| - 1] == s[k + 1..][..|s| - k - 2];
      LastIndexOfIs(s[..|s| - 1], c, k);
    }
  }

  /** `os.path.join(a, b)` (POSIX): an absolute `b` replaces `a`. */
  function PathJoin(a: string, b: string): (r: string)
    ensures |r| >= |b| && r[|r| - |b|..] == b
    ensures b != [] && b[0] == '/' ==> r == b
    ensures (b == [] || b[0] != '/') && a != [] && a[|a| - 1] != '/' ==> r == a + "/" + b
    ensures (b == [] || b[0] != '/') && (a == [] || a[|a| - 1] == '/') ==> r == a + b
  {
    if b != [] && b[0] == '/' then b
    else if a == [] || a[|a| - 1] == '/' then a + b
    else a + "/" + b
  }

  /** `'zip' in response.headers.get('Content-Type', '')`. */
  function AcceptsZip(contentType: Option<string>): (ok: bool)
    ensures ok <==> exists i: nat :: HasAt(contentType.GetOr(""), i, "zip")
  {
    Contains(contentType.GetOr(""), "zip")
  }

  /** A missing header is refused, and the test is case-sensitive: `application/ZIP` is refused too. */
  lemma ContentTypeExamples()
    ensures !AcceptsZip(None)
    ensures AcceptsZip(Some("application/zip"))
    ensures AcceptsZip(Some("application/x-zip-compressed"))
    ensures !AcceptsZip(Some("application/ZIP"))
  {
    assert HasAt("application/zip", 12, "zip");
    assert HasAt("application/x-zip-compressed", 14, "zip");
    var t := "application/ZIP";
    assert 'z' !in t;
    forall i: nat ensures !HasAt(t, i, "zip") {
      if i + 3 <= |t| {
        assert t[i..i + 3][0] == t[i];
      }
    }
  }

  /**
   * A file name that, inside an existing folder, names a folder: the folder
   * itself, `.` or `..`. Opening it for writing raises.
   */
  predicate NamesFolder(name: string) {
    name == "" || name == "." || name == ".."
  }

  /** `path` is `base` itself or lies below it. */
  predicate Within(path: string, base: string) {
    path == base || (|path| > |base| && path[..|base| + 1] == base + "/")
  }

  /**
   * `os.path.join(save_folder, folder_name)`, the default folder standing in
   * for None; None when `folder_name` is neither None nor a string, where
   * `join` raises a TypeError.
   */
  function ExtractFolder(saveFolder: string, url: string, folderName: Json): (r: Option<string>)
    ensures r.Some? <==> folderName.JNull? || folderName.JStr?
    ensures folderName.JNull? ==> r == Some(PathJoin(saveFolder, DefaultFolder(url)))
    ensures folderName.JStr? ==> r == Some(PathJoin(saveFolder, folderName.s))
  {
    match folderName
    case JNull => Some(PathJoin(saveFolder, DefaultFolder(url)))
    case JStr(name) => Some(PathJoin(saveFolder, name))
    case _ => None
  }

  /**
   * `download_and_unzip(url, save_folder, folder_name)` given the response
   * to `url`: the actions it completes, in order, and how it ends. The
   * folder name is the Python value passed, `JNull` being None.
   */
  function DownloadAndUnzip(url: string, saveFolder: string, folderName: Json, response: Response): (r: Report)
    ensures r.effects == [] <==> saveFolder == []
    ensures saveFolder == [] ==> r.status == Raised
    ensures saveFolder != [] ==> r.effects[0] == EnsureDir(saveFolder)
  {
    var name := ZipFilename(url);
    var archive := PathJoin(saveFolder, name);
    // `os.makedirs('')` raises
    if saveFolder == [] then Report(Raised, [])
    else match response
    case Unreachable => Report(FetchFailed, [EnsureDir(saveFolder)])
    case Reply(contentType, streamed, validZip) =>
      if !AcceptsZip(contentType) then Report(NotZip, [EnsureDir(saveFolder)])
      else if NamesFolder(name) then Report(Raised, [EnsureDir(saveFolder)])
      else if !streamed then Report(FetchFailed, [EnsureDir(saveFolder), WriteFile(archive)])
      else match ExtractFolder(saveFolder, url, folderName)
      case None => Report(Raised, [EnsureDir(saveFolder), WriteFile(archive)])
      case Some(folder) =>
        // a folder below the archive file cannot be made
        if folder != archive && Within(folder, archive) then Report(Raised, [EnsureDir(saveFolder), WriteFile(archive)])
        else if !validZip then Report(BadZip, [EnsureDir(saveFolder), WriteFile(archive), EnsureDir(folder)])
        // the folder is the archive file itself: extracting into it raises
        else if folder == archive then Report(Raised, [EnsureDir(saveFolder), WriteFile(archive), EnsureDir(folder)])
        else Report(Installed, [EnsureDir(saveFolder), WriteFile(archive), EnsureDir(folder), ExtractAll(archive, folder), RemoveFile(archive)])
  }

  /**
   * `download_and_unzip` fails before it fetches anything when there is no
   * save folder (`os.makedirs('')`), stops after making the save folder
   * when the reply is missing or not a zip archive, and raises there when
   * the file name names a folder.
   */
  lemma DownloadRefused(url: string, saveFolder: string, folderName: Json, response: Response)
    ensures var r := DownloadAndUnzip(url, saveFolder, folderName, response);
      && (saveFolder == [] ==> r.status == Raised)
      && (saveFolder != [] && !(response.Reply? && AcceptsZip(response.contentType)) ==>
            r.effects == [EnsureDir(saveFolder)] && r.status in {FetchFailed, NotZip})
      && (saveFolder != [] && response.Reply? && AcceptsZip(response.contentType) && NamesFolder(ZipFilename(url)) ==>
            r == Report(Raised, [EnsureDir(saveFolder)]))
  {
  }

  /**
   * A zip archive that was fetched whole and is valid is installed exactly
   * when its name and its extract folder can be used, and then all five
   * actions are done, the archive being removed last.
   */
  lemma DownloadOutcome(url: string, saveFolder: string, folderName: Json, response: Response)
    ensures var r := DownloadAndUnzip(url, saveFolder, folderName, response);
      var archive := PathJoin(saveFolder, ZipFilename(url));
      var folder := ExtractFolder(saveFolder, url, folderName);
      && (r.status == Installed <==>
            saveFolder != [] && response.Reply? && AcceptsZip(response.contentType) && response.streamed && response.validZip &&
            !NamesFolder(ZipFilename(url)) && folder.Some? && !Within(folder.value, archive))
      && (r.status == Installed ==>
            r.effects == [EnsureDir(saveFolder), WriteFile(archive), EnsureDir(folder.value), ExtractAll(archive, folder.value), RemoveFile(archive)])
  {
    var archive := PathJoin(saveFolder, ZipFilename(url));
    if saveFolder == [] || !response.Reply? || !AcceptsZip(response.contentType) || NamesFolder(ZipFilename(url)) {
    } else if !response.streamed || ExtractFolder(saveFolder, url, folderName).None? {
    } else {
      var folder := ExtractFolder(saveFolder, url, folderName).value;
      if folder != archive && Within(folder, archive) {
      } else if !response.validZip {
      } else if folder == archive {
        assert Within(folder, archive);
      } else {
      }
    }
  }

  /** The downloaded archive is removed only by a download that succeeds. */
  lemma DownloadKeepsArchive(url: string, saveFolder: string, folderName: Json, response: Response)
    ensures var r := DownloadAndUnzip(url, saveFolder, folderName, response);
      r.status != Installed ==> RemoveFile(PathJoin(saveFolder, ZipFilename(url))) !in r.effects
  {
    var archive := PathJoin(saveFolder, ZipFilename(url));
    if saveFolder == [] || !response.Reply? || !AcceptsZip(response.contentType) || NamesFolder(ZipFilename(url)) {
    } else if !response.streamed || ExtractFolder(saveFolder, url, folderName).None? {
    } else {
      var folder := ExtractFolder(saveFolder, url, folderName).value;
      if folder != archive && Within(folder, archive) {
      } else if !response.validZip {
      } else if folder == archive {
        assert Within(folder, archive);
      } else {
      }
    }
  }

  lemma SplitExtFooZip()
    ensures SplitExt("foo.zip") == ("foo", ".zip")
  {
    var name := "foo.zip";
    assert '.' !in name[4..];
    LastIndexOfIs(name, '.', 3);
    assert '/' !in name;
    assert -1 < 0 < 3 && name[0] != '.';
    assert name[..3] == "foo";
  }

  /** Any URL ending in `/foo.zip` has the file name `foo.zip` and the default folder `foo`. */
  lemma DefaultFolderFoo(site: string)
    ensures ZipFilename(site + "/foo.zip") == "foo.zip"
    ensures DefaultFolder(site + "/foo.zip") == "foo"
  {
    var name := "foo.zip";
    assert '/' !in name;
    ZipFilenameOf(site, name);
    assert site + "/" + name == site + "/foo.zip";
    SplitExtFooZip();
  }

  /** `…/foo.zip`, served as a ZIP, with no folder name downloads `app/foo.zip`, installs into `app/foo` and deletes the archive. */
  lemma InstallFooExample(site: string, response: Response)
    requires response.Reply? && AcceptsZip(response.contentType)
    requires response.streamed && response.validZip
    ensures DownloadAndUnzip(site + "/foo.zip", "app", JNull, response) ==
      Report(Installed, [EnsureDir("app"), WriteFile("app/foo.zip"), EnsureDir("app/foo"),
                         ExtractAll("app/foo.zip", "app/foo"), RemoveFile("app/foo.zip")])
  {
    FooArchive(site);
    FooFolder(site);
    assert !Within("app/foo", "app/foo.zip");
    AcceptedAndComplete(site + "/foo.zip", "app", JNull, response, "app/foo.zip", "app/foo");
  }

  /** Helper of InstallFooExample: the archive path of `…/foo.zip`. */
  lemma FooArchive(site: string)
    ensures PathJoin("app", ZipFilename(site + "/foo.zip")) == "app/foo.zip" && !NamesFolder(ZipFilename(site + "/foo.zip"))
  {
    DefaultFolderFoo(site);
    assert PathJoin("app", "foo.zip") == "app/foo.zip";
  }

  /** Helper of InstallFooExample: the default extract folder of `…/foo.zip`. */
  lemma FooFolder(site: string)
    ensures ExtractFolder("app", site + "/foo.zip", JNull) == Some("app/foo")
  {
    DefaultFolderFoo(site);
    assert PathJoin("app", "foo") == "app/foo";
  }

  /** Helper of the examples: a complete, valid archive once the two paths are known. */
  lemma AcceptedAndComplete(url: string, saveFolder: string, folderName: Json, response: Response, archive: string, folder: string)
    requires saveFolder != [] && response.Reply? && AcceptsZip(response.contentType)
    requires response.streamed && response.validZip
    requires PathJoin(saveFolder, ZipFilename(url)) == archive && !NamesFolder(ZipFilename(url))
    requires ExtractFolder(saveFolder, url, folderName) == Some(folder)
    ensures !Within(folder, archive) ==>
      DownloadAndUnzip(url, saveFolder, folderName, response) ==
      Report(Installed, [EnsureDir(saveFolder), WriteFile(archive), EnsureDir(folder), ExtractAll(archive, folder), RemoveFile(archive)])
    ensures folder == archive ==>
      DownloadAndUnzip(url, saveFolder, folderName, response) ==
      Report(Raised, [EnsureDir(saveFolder), WriteFile(archive), EnsureDir(folder)])
  {
  }

  /**
   * A file name without a dot, extracted into a folder of the same name (by
   * default or by choice): the folder test finds the archive itself, and
   * extracting into a file raises. The archive stays on disk.
   */
  lemma ExtractIntoArchive(site: string, name: string, folderName: Json, response: Response)
    requires name != [] && '/' !in name && '.' !in name
    requires folderName == JNull || folderName == JStr(name)
    requires response.Reply? && AcceptsZip(response.contentType) && response.streamed && response.validZip
    ensures DownloadAndUnzip(site + "/" + name, "app", folderName, response) ==
      Report(Raised, [EnsureDir("app"), WriteFile("app/" + name), EnsureDir("app/" + name)])
  {
    var url := site + "/" + name;
    ZipFilenameOf(site, name);
    assert !NamesFolder(name) by {
      assert name[0] in name;
    }
    assert DefaultFolder(url) == name;
    assert PathJoin("app", name) == "app/" + name by {
      assert name[0] in name;
    }
    AcceptedAndComplete(url, "app", folderName, response, "app/" + name, "app/" + name);
  }

  // ---------------------------------------------------------------- the dispatch loop

  /** Why a run stopped early: an exception nothing catches ends the program. */
  datatype Crash =
    | EmptyLibrary         // `game_data[len(game_data) - 1]` on an empty list
    | MissingDisplayName   // `game['displayName']` while printing the menu
    | MissingArgument      // `game['url']` or `game['name']` raised before the call
    | UncaughtInDownload(done: seq<Effect>)
      // raised inside `download_and_unzip`, after the actions in `done`

  datatype Halt = Finished | Crashed(reason: Crash)

  /** The downloads that returned, in order, and how the run ended. */
  datatype Run = Run(reports: seq<Report>, halt: Halt)

  /** `game['url']` and `game['name']`, evaluated before the call: None when either lookup raises. */
  function Arguments(game: Json): (r: Option<(Json, Json)>)
    ensures r.Some? <==> Field(game, "url").Some? && Field(game, "name").Some?
    ensures r.Some? ==> r.value == (Field(game, "url").value, Field(game, "name").value)
  {
    match (Field(game, "url"), Field(game, "name"))
    case (Some(url), Some(name)) => Some((url, name))
    case _ => None
  }

  /**
   * `download_and_unzip(game['url'], folder_name=game['name'])` for one game.
   * A `url` that is not a string has no `split`: the AttributeError comes
   * right after the save folder is made.
   */
  function Install(game: Json, fetch: string -> Response): (r: Report)
    requires Arguments(game).Some?
    ensures !Arguments(game).value.0.JStr? ==> r == Report(Raised, [EnsureDir("app")])
    ensures r.status == Installed ==>
      var (url, name) := Arguments(game).value;
      url.JStr? && (name.JNull? || name.JStr?) && |r.effects| == 5 &&
      r.effects[2] == EnsureDir(PathJoin("app", if name.JStr? then name.s else DefaultFolder(url.s)))
  {
    var (url, name) := Arguments(game).value;
    match url
    case JStr(u) => DownloadOutcome(u, "app", name, fetch(u)); DownloadAndUnzip(u, "app", name, fetch(u))
    case _ => Report(Raised, [EnsureDir("app")])
  }

  /**
   * A `name` that is neither null nor a string fails only at `os.path.join`:
   * a failed request or a refused type still returns normally first.
   */
  lemma BadFolderName(game: Json, fetch: string -> Response)
    requires Arguments(game).Some?
    requires Arguments(game).value.0.JStr?
    requires !Arguments(game).value.1.JNull? && !Arguments(game).value.1.JStr?
    ensures var url := Arguments(game).value.0.s;
      var response := fetch(url);
      Install(game, fetch).status == Raised <==>
        response.Reply? && AcceptsZip(response.contentType) && (NamesFolder(ZipFilename(url)) || response.streamed)
    ensures Install(game, fetch).status in {FetchFailed, NotZip, Raised}
  {
  }

  /**
   * `for game in games: download_and_unzip(game['url'], folder_name=game['name'])`,
   * with the download of one game left as a parameter: a failed download is
   * reported and the loop goes on; an uncaught exception ends it. Defined
   * from the last game back, as the loop extends its prefix.
   */
  function Loop(games: seq<Json>, install: Json --> Report): (run: Run)
    requires forall g :: Arguments(g).Some? ==> install.requires(g)
    ensures |run.reports| <= |games|
    ensures run.halt.Finished? ==> |run.reports| == |games|
  {
    if games == [] then Run([], Finished)
    else
      var before := Loop(games[..|games| - 1], install);
      var game := games[|games| - 1];
      if before.halt.Crashed? then before
      else if Arguments(game).None? then Run(before.reports, Crashed(MissingArgument))
      else
        var report := install(game);
        if report.status == Raised then Run(before.reports, Crashed(UncaughtInDownload(report.effects)))
        else Run(before.reports + [report], Finished)
  }

  /** The download of one game, for a game whose `url` and `name` are both present. */
  function Installer(fetch: string -> Response): Json --> Report {
    game requires Arguments(game).Some? => Install(game, fetch)
  }

  /** The loop of `updateGames()` over the selected games. */
  function Dispatch(games: seq<Json>, fetch: string -> Response): (run: Run)
    ensures |run.reports| <= |games|
    ensures run.halt.Finished? ==> |run.reports| == |games|
  {
    Loop(games, Installer(fetch))
  }

  /** The `j`-th report is the download of the `j`-th game, whose arguments were both present. */
  lemma {:induction false} LoopReportAt(games: seq<Json>, j: nat, install: Json --> Report)
    requires forall g :: Arguments(g).Some? ==> install.requires(g)
    requires j < |Loop(games, install).reports|
    ensures Arguments(games[j]).Some? && Loop(games, install).reports[j] == install(games[j])
  {
    var prefix := games[..|games| - 1];
    if j < |Loop(prefix, install).reports| {
      LoopReportAt(prefix, j, install);
      assert prefix[j] == games[j];
    }
  }

  /** Downloads are attempted in order, each from the game's own `url` and `name`. */
  lemma DispatchReports(games: seq<Json>, fetch: string -> Response)
    ensures var run := Dispatch(games, fetch);
      forall j :: 0 <= j < |run.reports| ==> Arguments(games[j]).Some? && run.reports[j] == Install(games[j], fetch)
  {
    var run := Dispatch(games, fetch);
    forall j | 0 <= j < |run.reports|
      ensures Arguments(games[j]).Some? && run.reports[j] == Install(games[j], fetch)
    {
      LoopReportAt(games, j, Installer(fetch));
    }
  }

  /** Every report of a run over games drawn from `pool` is the download of a game of `pool`. */
  lemma ReportsOfGames(games: seq<Json>, pool: seq<Json>, fetch: string -> Response)
    requires forall g :: g in games ==> g in pool
    ensures forall rep :: rep in Dispatch(games, fetch).reports ==>
      exists g :: g in pool && Arguments(g).Some? && rep == Install(g, fetch)
  {
    var run := Dispatch(games, fetch);
    DispatchReports(games, fetch);
    forall rep | rep in run.reports
      ensures exists g :: g in pool && Arguments(g).Some? && rep == Install(g, fetch)
    {
      var j :| 0 <= j < |run.reports| && run.reports[j] == rep;
      assert games[j] in games;
    }
  }

  /** Helper of LoopCrashIsFinal: one more game after a crash changes nothing. */
  lemma LoopCrashStays(games: seq<Json>, install: Json --> Report)
    requires forall g :: Arguments(g).Some? ==> install.requires(g)
    requires games != [] && Loop(games[..|games| - 1], install).halt.Crashed?
    ensures Loop(games, install) == Loop(games[..|games| - 1], install)
  {
  }

  /** An exception ends the loop: the games after it are never attempted. */
  lemma {:induction false} LoopCrashIsFinal(games: seq<Json>, i: nat, install: Json --> Report)
    requires forall g :: Arguments(g).Some? ==> install.requires(g)
    requires i <= |games|
    requires Loop(games[..i], install).halt.Crashed?
    ensures Loop(games, install) == Loop(games[..i], install)
    decreases |games| - i
  {
    if i < |games| {
      assert Loop(games[..i + 1], install) == Loop(games[..i], install) by {
        var longer := games[..i + 1];
        assert longer[..|longer| - 1] == games[..i];
        LoopCrashStays(longer, install);
      }
      LoopCrashIsFinal(games, i + 1, install);
    } else {
      assert games[..i] == games;
    }
  }

  /** Once a game raises, the games after it are never attempted. */
  lemma DispatchCrashIsFinal(games: seq<Json>, i: nat, fetch: string -> Response)
    requires i <= |games|
    requires Dispatch(games[..i], fetch).halt.Crashed?
    ensures Dispatch(games, fetch) == Dispatch(games[..i], fetch)
  {
    LoopCrashIsFinal(games, i, Installer(fetch));
  }

  /** Over well-formed games, a crash is the download of the first game not reported. */
  lemma {:induction false} LoopCrashNamesGame(games: seq<Json>, install: Json --> Report)
    requires forall g :: Arguments(g).Some? ==> install.requires(g)
    requires forall j :: 0 <= j < |games| ==> Arguments(games[j]).Some?
    ensures var run := Loop(games, install);
      run.halt.Crashed? ==>
        install(games[|run.reports|]).status == Raised &&
        run.halt.reason == UncaughtInDownload(install(games[|run.reports|]).effects)
  {
    if games != [] {
      var init := games[..|games| - 1];
      LoopCrashNamesGame(init, install);
      var before := Loop(init, install);
      if before.halt.Crashed? {
        assert init[|before.reports|] == games[|before.reports|];
      }
    }
  }

  /** A finished run met no download that raised. */
  lemma {:induction false} LoopFinishedNoneRaised(games: seq<Json>, install: Json --> Report)
    requires forall g :: Arguments(g).Some? ==> install.requires(g)
    requires Loop(games, install).halt.Finished?
    ensures forall j :: 0 <= j < |games| ==> Arguments(games[j]).Some? && install(games[j]).status != Raised
  {
    if games != [] {
      var init := games[..|games| - 1];
      LoopFinishedNoneRaised(init, install);
      forall j | 0 <= j < |games| ensures Arguments(games[j]).Some? && install(games[j]).status != Raised {
        if j < |init| {
          assert init[j] == games[j];
        }
      }
    }
  }

  /**
   * A run over well-formed games reaches every one of them, in order, unless
   * a download itself raises; then it stops right there.
   */
  lemma DispatchReachesAll(games: seq<Json>, fetch: string -> Response)
    requires forall j :: 0 <= j < |games| ==> Arguments(games[j]).Some?
    ensures var run := Dispatch(games, fetch);
      run.halt.Finished? <==> forall j :: 0 <= j < |games| ==> Install(games[j], fetch).status != Raised
    ensures var run := Dispatch(games, fetch);
      run.halt.Crashed? ==>
        Install(games[|run.reports|], fetch).status == Raised &&
        run.halt.reason == UncaughtInDownload(Install(games[|run.reports|], fetch).effects)
  {
    var install := Installer(fetch);
    LoopCrashNamesGame(games, install);
    if Dispatch(games, fetch).halt.Finished? {
      LoopFinishedNoneRaised(games, install);
    }
  }

  /**
   * The `for game in selected_games` loop: each game's download in turn,
   * stopping at the first exception nobody catches.
   */
  method DownloadAll(games: seq<Json>, fetch: string -> Response) returns (run: Run)
    ensures run == Dispatch(games, fetch)
  {
    var reports: seq<Report> := [];
    var i := 0;
    while i < |games|
      invariant 0 <= i <= |games|
      invariant Dispatch(games[..i], fetch) == Run(reports, Finished)
    {
      assert games[..i + 1][..i] == games[..i];
      var args := Arguments(games[i]);
      if args.None? {
        DispatchCrashIsFinal(games, i + 1, fetch);
        return Run(reports, Crashed(MissingArgument));
      }
      var report: Report;
      match args.value.0 {
        case JStr(url) =>
          report := DownloadAndUnzip(url, "app", args.value.1, fetch(url));
        case _ =>
          report := Report(Raised, [EnsureDir("app")]);
      }
      if report.status == Raised {
        DispatchCrashIsFinal(games, i + 1, fetch);
        return Run(reports, Crashed(UncaughtInDownload(report.effects)));
      }
      reports := reports + [report];
      i := i + 1;
    }
    assert games[..i] == games;
    run := Run(reports, Finished);
  }
}

=== FILE: json.dfy ===
/**
 * JSON values as Python's `json` module hands them to the updater: a game
 * descriptor is whatever value the descriptor URL returned, and the library
 * is a list of them.
 */
module Json {
  import opened Wrappers

  /** A decoded JSON value. Numbers are integers only (see README, "Left out"). */
  datatype Json =
    | JNull
    | JBool(b: bool)
    | JNum(n: int)
    | JStr(s: string)
    | JArr(items: seq<Json>)
    | JObj(fields: map<string, Json>)

  /** The integer Python uses for a bool when it compares it with an int. */
  function BoolValue(b: bool): int {
    if b then 1 else 0
  }

  /** The number a bool or an int stands for when Python compares it. */
  function NumberOf(a: Json): int
    requires a.JBool? || a.JNum?
  {
    if a.JBool? then BoolValue(a.b) else a.n
  }

  /**
   * Python's `==` on decoded JSON values. It is structural, except that a
   * bool equals the int it stands for (`True == 1`), at any depth; dicts
   * compare by key set and values, lists element by element.
   */
  predicate PyEq(a: Json, b: Json)
    ensures (a.JNull? || a.JStr? || b.JNull? || b.JStr?) ==> (PyEq(a, b) <==> a == b)
    ensures PyEq(a, b) ==> a.JArr? == b.JArr? && a.JObj? == b.JObj?
    ensures (a.JBool? || a.JNum?) && (b.JBool? || b.JNum?) ==> (PyEq(a, b) <==> NumberOf(a) == NumberOf(b))
    ensures PyEq(a, b) ==> (a.JBool? || a.JNum?) == (b.JBool? || b.JNum?)
    decreases a
  {
    match (a, b)
    case (JNull, JNull) => true
    case (JBool(x), JBool(y)) => x == y
    case (JBool(x), JNum(m)) => m == BoolValue(x)
    case (JNum(n), JBool(y)) => n == BoolValue(y)
    case (JNum(n), JNum(m)) => n == m
    case (JStr(s), JStr(t)) => s == t
    case (JArr(xs), JArr(ys)) =>
      |xs| == |ys| && forall i :: 0 <= i < |xs| ==> PyEq(xs[i], ys[i])
    case (JObj(m), JObj(n)) =>
      m.Keys == n.Keys && forall k :: k in m ==> PyEq(m[k], n[k])
    case _ => false
  }

  /** Every value equals itself, which is what makes `x in [x]` hold. */
  lemma {:induction false} PyEqReflexive(a: Json)
    ensures PyEq(a, a)
    decreases a
  {
    match a
    case JArr(xs) =>
      forall i | 0 <= i < |xs| ensures PyEq(xs[i], xs[i]) {
        PyEqReflexive(xs[i]);
      }
    case JObj(m) =>
      forall k | k in m ensures PyEq(m[k], m[k]) {
        PyEqReflexive(m[k]);
      }
    case _ =>
  }

  lemma {:induction false} PyEqSymmetric(a: Json, b: Json)
    requires PyEq(a, b)
    ensures PyEq(b, a)
    decreases a
  {
    match (a, b)
    case (JArr(xs), JArr(ys)) =>
      forall i | 0 <= i < |ys| ensures PyEq(ys[i], xs[i]) {
        PyEqSymmetric(xs[i], ys[i]);
      }
    case (JObj(m), JObj(n)) =>
      forall k | k in n ensures PyEq(n[k], m[k]) {
        PyEqSymmetric(m[k], n[k]);
      }
    case _ =>
  }

  lemma {:induction false} PyEqTransitive(a: Json, b: Json, c: Json)
    requires PyEq(a, b) && PyEq(b, c)
    ensures PyEq(a, c)
    decreases a
  {
    match (a, b, c)
    case (JArr(xs), JArr(ys), JArr(zs)) =>
      forall i | 0 <= i < |xs| ensures PyEq(xs[i], zs[i]) {
        PyEqTransitive(xs[i], ys[i], zs[i]);
      }
    case (JObj(m), JObj(n), JObj(o)) =>
      forall k | k in m ensures PyEq(m[k], o[k]) {
        PyEqTransitive(m[k], n[k], o[k]);
      }
    case _ =>
  }

  /** Python equality is coarser than Dafny's: `{"v": true}` equals `{"v": 1}`. */
  lemma BoolEqualsOne()
    ensures JObj(map["v" := JBool(true)]) != JObj(map["v" := JNum(1)])
    ensures PyEq(JObj(map["v" := JBool(true)]), JObj(map["v" := JNum(1)]))
  {
    var m, n := map["v" := JBool(true)], map["v" := JNum(1)];
    assert m["v"] != n["v"];
    assert forall k :: k in m ==> PyEq(m[k], n[k]);
  }

  /**
   * `value[key]` on a decoded value: present only when the value is a dict
   * holding that key; anything else raises in Python (KeyError or TypeError).
   */
  function Field(value: Json, key: string): (r: Option<Json>)
    ensures r.Some? <==> value.JObj? && key in value.fields
    ensures r.Some? ==> r.value == value.fields[key]
  {
    if value.JObj? && key in value.fields then Some(value.fields[key]) else None
  }
}

=== FILE: library.dfy ===
/**
 * update.py, the text edition: the game library it keeps in `game_data` and
 * the three menu actions on it (download a new game, update, uninstall),
 * plus the path taken when it is launched with a `shredspace://` URL.
 */
module Library {
  import opened Wrappers
  import opened Json
  import opened PyStr
  import opened Selection
  import opened Download

  // ---------------------------------------------------------------- adding a game

  /** What fetching a descriptor URL gave `downloadGames`. */
  datatype DescriptorFetch =
    | RequestFailed                // RequestException from `requests.get` or `raise_for_status`
    | Body(decoded: Option<Json>)  // None: `game.json()` raised

  datatype AddOutcome =
    | FetchError      // reported, library untouched
    | ParseError      // reported, library untouched
    | Duplicate       // "This game is already in your library!"
    | Added(entry: Json)

  /**
   * `d in lib`: some entry is equal to `d` under Python equality. An entry
   * identical to `d` is always found; null and strings are found only as
   * themselves.
   */
  predicate InLibrary(lib: seq<Json>, d: Json)
    ensures d in lib ==> InLibrary(lib, d)
    ensures (d.JNull? || d.JStr?) ==> (InLibrary(lib, d) <==> d in lib)
  {
    PyEqReflexive(d);
    exists i :: 0 <= i < |lib| && PyEq(lib[i], d)
  }

  /** No entry equals another one. */
  predicate Distinct(lib: seq<Json>) {
    forall i, j :: 0 <= i < j < |lib| ==> !PyEq(lib[i], lib[j])
  }

  /** The library once `downloadGames` has dealt with the descriptor `d`. */
  function AddEntry(lib: seq<Json>, d: Json): (r: seq<Json>)
    ensures InLibrary(r, d)
    ensures |r| >= |lib| && r[..|lib|] == lib
    ensures r == lib <==> InLibrary(lib, d)
    ensures r != lib ==> r == lib + [d]
  {
    PyEqReflexive(d);
    if InLibrary(lib, d) then lib
    else
      assert PyEq((lib + [d])[|lib|], d);
      lib + [d]
  }

  /** Adding the same descriptor twice adds it once. */
  lemma AddIdempotent(lib: seq<Json>, d: Json)
    ensures AddEntry(AddEntry(lib, d), d) == AddEntry(lib, d)
  {
  }

  /**
   * A descriptor equal to one already present (Python equality, so `true`
   * and `1` count as the same) leaves the library as it is.
   */
  lemma {:induction false} AddEqualDescriptor(lib: seq<Json>, d: Json, e: Json)
    requires InLibrary(lib, d) && PyEq(d, e)
    ensures AddEntry(lib, e) == lib
  {
    var i :| 0 <= i < |lib| && PyEq(lib[i], d);
    PyEqTransitive(lib[i], d, e);
  }

  /** Adding keeps a library free of equal entries. */
  lemma AddKeepsDistinct(lib: seq<Json>, d: Json)
    requires Distinct(lib)
    ensures Distinct(AddEntry(lib, d))
  {
    var r := AddEntry(lib, d);
    if r != lib {
      forall i, j | 0 <= i < j < |r| ensures !PyEq(r[i], r[j]) {
        if j == |lib| {
          assert r[i] == lib[i];
        } else {
          assert r[i] == lib[i] && r[j] == lib[j];
        }
      }
    }
  }

  /** How `downloadGames` ends for a given fetch. */
  function AddOutcomeOf(lib: seq<Json>, fetched: DescriptorFetch): (r: AddOutcome)
    ensures r.Added? <==> fetched.Body? && fetched.decoded.Some? && !InLibrary(lib, fetched.decoded.value)
    ensures r.Added? ==> r.entry == fetched.decoded.value
    ensures r == Duplicate <==> fetched.Body? && fetched.decoded.Some? && InLibrary(lib, fetched.decoded.value)
  {
    match fetched
    case RequestFailed => FetchError
    case Body(None) => ParseError
    case Body(Some(d)) => if InLibrary(lib, d) then Duplicate else Added(d)
  }

  // ---------------------------------------------------------------- updating

  /** `[game_data[len(game_data) - 1]]`: the games `updateGames(latest=True)` selects. */
  function Latest(lib: seq<Json>): (r: seq<Json>)
    requires lib != []
    ensures |r| == 1 && r[0] == lib[|lib| - 1]
  {
    [lib[|lib| - 1]]
  }

  /**
   * What `updateGames(latest)` does, the user typing `input` when asked: at
   * most one download in latest mode, at most one per comma-separated piece
   * otherwise, and every download is a library game's.
   */
  function UpdateOf(lib: seq<Json>, latest: bool, input: string, fetch: string -> Response): (r: Run)
    ensures latest ==> |r.reports| <= 1
    ensures !latest ==> |r.reports| <= |Split(input, ',')|
    ensures forall rep :: rep in r.reports ==> exists g :: g in lib && Arguments(g).Some? && rep == Install(g, fetch)
  {
    if latest then
      if lib == [] then Run([], Crashed(EmptyLibrary))
      else
        ReportsOfGames(Latest(lib), lib, fetch);
        Dispatch(Latest(lib), fetch)
    else if Menu(lib).None? then Run([], Crashed(MissingDisplayName))
    else
      ReportsOfGames(AskForSelection(lib, input), lib, fetch);
      Dispatch(AskForSelection(lib, input), fetch)
  }

  /** Latest mode on an empty library is an IndexError nobody catches. */
  lemma UpdateLatestEmpty(input: string, fetch: string -> Response)
    ensures UpdateOf([], true, input, fetch) == Run([], Crashed(EmptyLibrary))
  {
  }

  /** Latest mode attempts exactly one download: the last game's, into a folder named after it. */
  lemma UpdateLatestOnly(lib: seq<Json>, input: string, fetch: string -> Response)
    requires lib != [] && Arguments(lib[|lib| - 1]).Some?
    ensures var run := UpdateOf(lib, true, input, fetch);
      var report := Install(lib[|lib| - 1], fetch);
      run.reports == (if report.status == Raised then [] else [report]) &&
      (run.halt.Finished? <==> report.status != Raised)
  {
    var last := Latest(lib);
    DispatchReachesAll(last, fetch);
  }

  /**
   * Typing the numbers `ks`, all on the menu, updates `lib[k - 1]` for each
   * `k` in turn (repeats included), each from its own `url` into a folder
   * named after its `name`, unless a download raises.
   */
  lemma {:induction false} UpdateTyped(lib: seq<Json>, ks: seq<int>, fetch: string -> Response)
    requires |ks| >= 1 && Menu(lib).Some?
    requires forall j :: 0 <= j < |ks| ==> 1 <= ks[j] <= |lib| && Arguments(lib[ks[j] - 1]).Some?
    ensures |UpdateOf(lib, false, Typed(ks), fetch).reports| <= |ks|
    ensures forall j :: 0 <= j < |UpdateOf(lib, false, Typed(ks), fetch).reports| ==>
      UpdateOf(lib, false, Typed(ks), fetch).reports[j] == Install(lib[ks[j] - 1], fetch)
    ensures UpdateOf(lib, false, Typed(ks), fetch).halt.Finished? <==>
      forall j :: 0 <= j < |ks| ==> Install(lib[ks[j] - 1], fetch).status != Raised
  {
    var input := Typed(ks);
    var sel := AskForSelection(lib, input);
    SelectTyped(lib, ks);
    UpdateSelected(lib, input, fetch);
    UpdateTypedDispatch(lib, ks, sel, fetch);
  }

  /** With a menu that prints, `updateGames()` dispatches what the user selected. */
  lemma UpdateSelected(lib: seq<Json>, input: string, fetch: string -> Response)
    requires Menu(lib).Some?
    ensures UpdateOf(lib, false, input, fetch) == Dispatch(AskForSelection(lib, input), fetch)
  {
  }

  /** Helper of UpdateTyped, once the selection is known. */
  lemma UpdateTypedDispatch(lib: seq<Json>, ks: seq<int>, sel: seq<Json>, fetch: string -> Response)
    requires |sel| == |ks|
    requires forall j :: 0 <= j < |ks| ==> 1 <= ks[j] <= |lib| && Arguments(lib[ks[j] - 1]).Some? && sel[j] == lib[ks[j] - 1]
    ensures forall j :: 0 <= j < |Dispatch(sel, fetch).reports| ==>
      j < |ks| && Dispatch(sel, fetch).reports[j] == Install(lib[ks[j] - 1], fetch)
    ensures Dispatch(sel, fetch).halt.Finished? <==>
      forall j :: 0 <= j < |ks| ==> Install(lib[ks[j] - 1], fetch).status != Raised
  {
    DispatchReports(sel, fetch);
    DispatchReachesAll(sel, fetch);
  }

  // ---------------------------------------------------------------- uninstalling

  datatype UninstallOutcome =
    | Uninstalled(entry: Json)
    | IndexOutOfRange   // IndexError from `game_data[i]`, caught
    | NoName            // the entry has no `name` (KeyError or TypeError), caught
    | RemovalFailed     // `shutil.rmtree` raised, caught; nothing popped
    | TooManySelected   // "You can only uninstall one game at a time."
    | NoneSelected
    | MenuFailed        // `game['displayName']` raised while printing the menu

  datatype Uninstall = Uninstall(library: seq<Json>, outcome: UninstallOutcome)

  /** `lib.pop(k)`: the entry at `k` goes, the others keep their order. */
  function RemoveAt(lib: seq<Json>, k: nat): (r: seq<Json>)
    requires k < |lib|
    ensures |r| == |lib| - 1
    ensures forall j :: 0 <= j < k ==> r[j] == lib[j]
    ensures forall j :: k <= j < |r| ==> r[j] == lib[j + 1]
    ensures multiset(r) + multiset{lib[k]} == multiset(lib)
  {
    assert lib == lib[..k] + [lib[k]] + lib[k + 1..];
    lib[..k] + lib[k + 1..]
  }

  /**
   * What `uninstallGames` does to the library when the user types `input`;
   * `removalOk` says whether the game's folder, if present, could be deleted.
   */
  function UninstallOf(lib: seq<Json>, input: string, removalOk: bool): (r: Uninstall)
    ensures r.outcome.Uninstalled? <==> |r.library| == |lib| - 1
    ensures !r.outcome.Uninstalled? ==> r.library == lib
    ensures r.outcome.Uninstalled? ==> removalOk && |AskUninstall(input)| == 1
  {
    if Menu(lib).None? then Uninstall(lib, MenuFailed)
    else
      var indices := AskUninstall(input);
      if |indices| == 1 then
        var i := indices[0];
        if !PyIndexValid(i, |lib|) then Uninstall(lib, IndexOutOfRange)
        else
          var k := PyIndex(i, |lib|);
          if Field(lib[k], "name").None? then Uninstall(lib, NoName)
          else if !removalOk then Uninstall(lib, RemovalFailed)
          else Uninstall(RemoveAt(lib, k), Uninstalled(lib[k]))
      else if |indices| > 1 then Uninstall(lib, TooManySelected)
      else Uninstall(lib, NoneSelected)
  }

  /**
   * One index `i` with `-len <= i < len`, a named entry there and a folder
   * that could be removed: that entry, Python position `i`, goes; nothing
   * else moves.
   */
  lemma UninstallOne(lib: seq<Json>, input: string, i: int)
    requires Menu(lib).Some? && ParseIndices(input) == Some([i])
    requires PyIndexValid(i, |lib|) && Field(lib[PyIndex(i, |lib|)], "name").Some?
    ensures UninstallOf(lib, input, true) ==
      Uninstall(RemoveAt(lib, PyIndex(i, |lib|)), Uninstalled(lib[PyIndex(i, |lib|)]))
  {
  }

  /** Typing the game's number `k` removes `lib[k - 1]`. */
  lemma UninstallTyped(lib: seq<Json>, k: int)
    requires Menu(lib).Some? && 1 <= k <= |lib| && Field(lib[k - 1], "name").Some?
    ensures UninstallOf(lib, Typed([k]), true).library == RemoveAt(lib, k - 1)
  {
    ParseTypedOne(k);
    assert PyIndexValid(k - 1, |lib|) && PyIndex(k - 1, |lib|) == k - 1;
    UninstallOne(lib, Typed([k]), k - 1);
  }

  /** Helper of UninstallTyped: a single typed number reads back as its index. */
  lemma ParseTypedOne(k: int)
    ensures ParseIndices(Typed([k])) == Some([k - 1])
  {
    ParseTyped([k]);
    assert Decrement([k]) == [k - 1];
  }

  /** Typing 0 gives index -1, so the last game is removed. */
  lemma UninstallZero(lib: seq<Json>)
    requires Menu(lib).Some? && lib != [] && Field(lib[|lib| - 1], "name").Some?
    ensures UninstallOf(lib, "0", true).library == lib[..|lib| - 1]
  {
    UninstallZeroMeansLast(|lib|);
    ParseTyped([0]);
    assert Typed([0]) == "0" by {
      assert FormatInt(0) == "0";
    }
  }

  /**
   * The library is left as it was when the input does not parse, names
   * several games, names a position outside `-len <= i < len`, or when the
   * folder could not be removed (rmtree comes before pop).
   */
  lemma UninstallUnchanged(lib: seq<Json>, input: string, removalOk: bool)
    requires || ParseIndices(input).None?
             || |AskUninstall(input)| > 1
             || (|AskUninstall(input)| == 1 && !PyIndexValid(AskUninstall(input)[0], |lib|))
             || !removalOk
    ensures UninstallOf(lib, input, removalOk).library == lib
  {
  }

  /**
   * With the menu shown, a piece that is not a number means nothing was
   * selected, and several numbers, valid or not, are refused as a group.
   */
  lemma UninstallRefused(lib: seq<Json>, input: string, removalOk: bool)
    requires Menu(lib).Some?
    ensures ParseIndices(input).None? ==> UninstallOf(lib, input, removalOk).outcome == NoneSelected
    ensures ParseIndices(input).Some? && |Split(input, ',')| > 1 ==>
      UninstallOf(lib, input, removalOk).outcome == TooManySelected
  {
  }

  /** Removing keeps a library free of equal entries. */
  lemma RemoveKeepsDistinct(lib: seq<Json>, k: nat)
    requires k < |lib| && Distinct(lib)
    ensures Distinct(RemoveAt(lib, k))
  {
    var r := RemoveAt(lib, k);
    forall i, j | 0 <= i < j < |r| ensures !PyEq(r[i], r[j]) {
      var i', j' := if i < k then i else i + 1, if j < k then j else j + 1;
      assert r[i] == lib[i'] && r[j] == lib[j'];
    }
  }

  // ---------------------------------------------------------------- the library object

  /** The global `game_data` list and what `games.json` last received from `save_json`. */
  class GameLibrary {
    var games: seq<Json>
    var manifest: seq<Json>

    /** `game_data = process_json_file(json_file)`, the file having held `loaded`. */
    constructor (loaded: seq<Json>)
      ensures games == loaded && manifest == loaded
    {
      games := loaded;
      manifest := loaded;
    }

    /** `save_json`. */
    method Save()
      modifies this
      ensures games == old(games) && manifest == games
    {
      manifest := games;
    }

    /** `downloadGames` once the descriptor URL has been fetched. */
    method AddGame(fetched: DescriptorFetch) returns (outcome: AddOutcome)
      modifies this
      ensures outcome == AddOutcomeOf(old(games), fetched)
      ensures games == if outcome.Added? then old(games) + [outcome.entry] else old(games)
      ensures manifest == if outcome.Added? then games else old(manifest)
      ensures Distinct(old(games)) ==> Distinct(games)
    {
      match fetched
      case RequestFailed =>
        outcome := FetchError;
      case Body(None) =>
        outcome := ParseError;
      case Body(Some(d)) =>
        if InLibrary(games, d) {
          outcome := Duplicate;
        } else {
          if Distinct(games) {
            AddKeepsDistinct(games, d);
          }
          games := games + [d];
          outcome := Added(d);
          Save();
        }
    }

    /** `updateGames(latest)`; the library is only read. */
    method UpdateGames(latest: bool, input: string, fetch: string -> Response) returns (run: Run)
      ensures run == UpdateOf(games, latest, input, fetch)
    {
      var selected: seq<Json>;
      if latest {
        if games == [] {
          return Run([], Crashed(EmptyLibrary));
        }
        selected := [games[|games| - 1]];
      } else {
        if Menu(games).None? {
          return Run([], Crashed(MissingDisplayName));
        }
        selected := AskForSelection(games, input);
      }
      run := DownloadAll(selected, fetch);
    }

    /** `uninstallGames`, ending with `save_json` unless the menu raised. */
    method UninstallGame(input: string, removalOk: bool) returns (outcome: UninstallOutcome)
      modifies this
      ensures Uninstall(games, outcome) == UninstallOf(old(games), input, removalOk)
      ensures manifest == if outcome == MenuFailed then old(manifest) else games
      ensures Distinct(old(games)) ==> Distinct(games)
    {
      if Menu(games).None? {
        return MenuFailed;
      }
      var indices := AskUninstall(input);
      if |indices| == 1 {
        var i := indices[0];
        if !PyIndexValid(i, |games|) {
          outcome := IndexOutOfRange;
        } else {
          var k := PyIndex(i, |games|);
          if Field(games[k], "name").None? {
            outcome := NoName;
          } else if !removalOk {
            outcome := RemovalFailed;
          } else {
            outcome := Uninstalled(games[k]);
            if Distinct(games) {
              RemoveKeepsDistinct(games, k);
            }
            games := RemoveAt(games, k);
          }
        }
      } else if |indices| > 1 {
        outcome := TooManySelected;
      } else {
        outcome := NoneSelected;
      }
      Save();
    }
  }

  // ---------------------------------------------------------------- launched with a URL

  const Scheme := "shredspace://"
  const Https := "https://"

  /** `url.replace("shredspace://", "https://")`: never longer than the link. */
  function RewriteScheme(url: string): (r: string)
    ensures |r| <= |url|
  {
    ReplaceAll(url, Scheme, Https)
  }

  /** The rewritten link is empty only when the link is. */
  lemma RewriteKeepsEmptiness(url: string)
    ensures RewriteScheme(url) == [] <==> url == []
  {
    if |url| >= |Scheme| {
      assert RewriteScheme(url)[0] == (if url[..|Scheme|] == Scheme then Https[0] else url[0]);
    }
  }

  /**
   * The URL `downloadGames` fetches when launched with `arg`: the rewritten
   * link, unless that is empty, in which case `if url:` fails and the URL
   * the user types at the prompt is fetched instead.
   */
  function LinkUrl(arg: string, typed: string): (url: string)
    ensures arg != [] ==> url == RewriteScheme(arg)
    ensures arg == [] ==> url == typed
  {
    RewriteKeepsEmptiness(arg);
    var link := RewriteScheme(arg);
    if link != [] then link else typed
  }

  /**
   * Wherever the first `shredspace://` of a link is, it becomes `https://`:
   * the text before it is kept, and the text after it is rewritten in turn.
   */
  lemma RewriteAtFirst(u: string, v: string)
    requires !Contains(u + Scheme[..|Scheme| - 1], Scheme)
    ensures RewriteScheme(u + Scheme + v) == u + Https + RewriteScheme(v)
  {
    ReplaceAtFirst(u, Scheme, Https, v);
  }

  /** A link `shredspace://rest` becomes `https://rest`. */
  lemma RewriteLeadingScheme(rest: string)
    requires !Contains(rest, Scheme)
    ensures RewriteScheme(Scheme + rest) == Https + rest
  {
    var s := Scheme + rest;
    assert s[..|Scheme|] == Scheme && s[|Scheme|..] == rest;
    ReplaceAbsent(rest, Scheme, Https);
  }

  /** Whatever follows, a link that starts with the scheme starts with `https://` afterwards. */
  lemma RewriteKeepsFront(url: string)
    requires |url| >= |Scheme| && url[..|Scheme|] == Scheme
    ensures |RewriteScheme(url)| >= |Https| && RewriteScheme(url)[..|Https|] == Https
  {
    var t := RewriteScheme(url);
    assert t == Https + RewriteScheme(url[|Scheme|..]);
    assert t[..|Https|] == Https;
  }

  /** If the rewritten text starts with `w` (which has no `h`), so did the original. */
  lemma {:induction false} RewritePrefix(u: string, w: string)
    requires 'h' !in w
    requires |RewriteScheme(u)| >= |w| && RewriteScheme(u)[..|w|] == w
    ensures |u| >= |w| && u[..|w|] == w
    decreases |w|
  {
    if w != [] && |u| >= |Scheme| {
      assert w[0] in w;
      assert u[..|Scheme|] != Scheme;
      assert RewriteScheme(u) == [u[0]] + RewriteScheme(u[1..]);
      assert RewriteScheme(u[1..])[..|w| - 1] == RewriteScheme(u)[1..|w|];
      RewritePrefix(u[1..], w[1..]);
    }
  }

  /** Every occurrence is rewritten: no `shredspace://` is left afterwards. */
  lemma {:induction false} NoSchemeLeft(url: string)
    ensures forall i: nat :: !HasAt(RewriteScheme(url), i, Scheme)
    decreases |url|
  {
    var t := RewriteScheme(url);
    if |url| < |Scheme| {
      assert t == url;
      forall i: nat ensures !HasAt(t, i, Scheme) {
      }
    } else if url[..|Scheme|] == Scheme {
      NoSchemeLeft(url[|Scheme|..]);
      NoSchemeAfterHttps(RewriteScheme(url[|Scheme|..]));
      assert t == Https + RewriteScheme(url[|Scheme|..]);
    } else {
      NoSchemeLeft(url[1..]);
      NoSchemeAfterKept(url);
      assert t == [url[0]] + RewriteScheme(url[1..]);
    }
  }

  /** `https://` in front of text without the scheme does not create one. */
  lemma {:induction false} NoSchemeAfterHttps(x: string)
    requires forall i: nat :: !HasAt(x, i, Scheme)
    ensures forall i: nat :: !HasAt(Https + x, i, Scheme)
  {
    var t := Https + x;
    forall i: nat ensures !HasAt(t, i, Scheme) {
      if i + |Scheme| <= |t| {
        if i >= |Https| {
          var i': nat := i - |Https|;
          assert t[i..i + |Scheme|] == x[i'..i' + |Scheme|];
          assert !HasAt(x, i', Scheme);
        } else if i == 4 {
          assert t[i..i + |Scheme|][1] == t[5] == Https[5];
        } else {
          assert t[i..i + |Scheme|][0] == t[i] == Https[i];
        }
      }
    }
  }

  /** A first character that does not start the scheme, kept in front of rewritten text, does not create one. */
  lemma {:induction false} NoSchemeAfterKept(url: string)
    requires |url| >= |Scheme| && url[..|Scheme|] != Scheme
    requires forall i: nat :: !HasAt(RewriteScheme(url[1..]), i, Scheme)
    ensures forall i: nat :: !HasAt([url[0]] + RewriteScheme(url[1..]), i, Scheme)
  {
    var x := RewriteScheme(url[1..]);
    var t := [url[0]] + x;
    forall i: nat ensures !HasAt(t, i, Scheme) {
      if i >= 1 {
        if i + |Scheme| <= |t| {
          var i': nat := i - 1;
          assert t[i..i + |Scheme|] == x[i'..i' + |Scheme|];
          assert !HasAt(x, i', Scheme);
        }
      } else {
        NotSchemeAtFront(url);
      }
    }
  }

  /** Helper of NoSchemeLeft: a first character kept as is cannot start `shredspace://`. */
  lemma NotSchemeAtFront(url: string)
    requires |url| >= |Scheme| && url[..|Scheme|] != Scheme
    ensures !HasAt([url[0]] + RewriteScheme(url[1..]), 0, Scheme)
  {
    var t := [url[0]] + RewriteScheme(url[1..]);
    var x := RewriteScheme(url[1..]);
    var u := url[1..];
    if |t| < |Scheme| {
    } else if |u| >= |Scheme| && u[..|Scheme|] == Scheme {
      assert x == Https + RewriteScheme(u[|Scheme|..]);
      assert t[..|Scheme|][2] == x[1] == 't' != Scheme[2];
    } else {
      NotSchemeAtFrontKept(url);
    }
  }

  /** NotSchemeAtFront when the second character is kept as well. */
  lemma NotSchemeAtFrontKept(url: string)
    requires |url| >= |Scheme| && url[..|Scheme|] != Scheme
    requires |[url[0]] + RewriteScheme(url[1..])| >= |Scheme|
    requires var u := url[1..]; !(|u| >= |Scheme| && u[..|Scheme|] == Scheme)
    ensures !HasAt([url[0]] + RewriteScheme(url[1..]), 0, Scheme)
  {
    var t := [url[0]] + RewriteScheme(url[1..]);
    var x := RewriteScheme(url[1..]);
    var u := url[1..];
    assert x == [u[0]] + RewriteScheme(u[1..]);
    assert u[1..] == url[2..];
    var y := RewriteScheme(url[2..]);
    assert t[..|Scheme|] == [url[0]] + [url[1]] + y[..|Scheme| - 2];
    if url[0] != 's' {
      assert t[..|Scheme|][0] != Scheme[0];
    } else if url[1] != 'h' {
      assert t[..|Scheme|][1] != Scheme[1];
    } else {
      assert url[..|Scheme|] == [url[0]] + [url[1]] + url[2..][..|Scheme| - 2];
      assert Scheme == "sh" + "redspace://";
      if y[..|Scheme| - 2] == "redspace://" {
        RewritePrefix(url[2..], "redspace://");
      }
      assert t[..|Scheme|][2..] != Scheme[2..];
    }
  }

  /**
   * The main block when update.py is launched with a URL: it adds the
   * descriptor found at the rewritten URL, updates the library's last game,
   * and saves the library on the way out (unless the update raised).
   */
  method RunWithUrl(library: GameLibrary, arg: string, typed: string, descriptorAt: string -> DescriptorFetch, fetch: string -> Response)
    returns (added: AddOutcome, run: Run)
    modifies library
    ensures added == AddOutcomeOf(old(library.games), descriptorAt(LinkUrl(arg, typed)))
    ensures library.games == if added.Added? then old(library.games) + [added.entry] else old(library.games)
    ensures run == UpdateOf(library.games, true, "", fetch)
    ensures library.manifest == if added.Added? || run.halt.Finished? then library.games else old(library.manifest)
  {
    added := library.AddGame(descriptorAt(LinkUrl(arg, typed)));
    run := library.UpdateGames(true, "", fetch);
    if run.halt.Finished? {
      library.Save();
    }
  }

  /**
   * As written, a link to a game already in the library updates whatever
   * game is last in the library: with `[a, b]` and a link to `a`, it is `b`.
   */
  lemma UrlForKnownGameUpdatesLast(a: Json, b: Json, fetch: string -> Response)
    requires !PyEq(b, a)
    ensures AddOutcomeOf([a, b], Body(Some(a))) == Duplicate
    ensures AddEntry([a, b], a) == [a, b] && Latest([a, b]) == [b]
    ensures forall g :: g in Latest(AddEntry([a, b], a)) ==> !PyEq(g, a)
    ensures UpdateOf(AddEntry([a, b], a), true, "", fetch) == Dispatch([b], fetch)
  {
    PyEqReflexive(a);
    assert PyEq([a, b][0], a);
  }

  /** The first entry equal to `d`. */
  function FirstEqual(lib: seq<Json>, d: Json): (k: nat)
    requires InLibrary(lib, d)
    ensures k < |lib| && PyEq(lib[k], d)
    ensures forall j :: 0 <= j < k ==> !PyEq(lib[j], d)
  {
    if PyEq(lib[0], d) then 0
    else
      assert InLibrary(lib[1..], d) by {
        var i :| 0 <= i < |lib| && PyEq(lib[i], d);
        assert lib[1..][i - 1] == lib[i];
      }
      1 + FirstEqual(lib[1..], d)
  }

  /**
   * The games the URL path should update: the one just added, or, when the
   * link names a game already present, that game; nothing when the fetch
   * failed.
   */
  function UrlSelection(lib: seq<Json>, fetched: DescriptorFetch): (r: seq<Json>)
    ensures |r| <= 1
    ensures r != [] <==> fetched.Body? && fetched.decoded.Some?
    ensures forall g :: g in r ==> PyEq(g, fetched.decoded.value)
    ensures forall g :: g in r ==> g in AddEntry(lib, fetched.decoded.value)
  {
    match fetched
    case Body(Some(d)) =>
      PyEqReflexive(d);
      var after := AddEntry(lib, d);
      if InLibrary(lib, d) then [lib[FirstEqual(lib, d)]] else Latest(after)
    case _ => []
  }

  /** The URL path as intended: the library after the add, and the update run on the linked game. */
  function RunWithUrlIntended(lib: seq<Json>, arg: string, typed: string, descriptorAt: string -> DescriptorFetch, fetch: string -> Response): (seq<Json>, Run) {
    var fetched := descriptorAt(LinkUrl(arg, typed));
    var after := if fetched.Body? && fetched.decoded.Some? then AddEntry(lib, fetched.decoded.value) else lib;
    (after, Dispatch(UrlSelection(lib, fetched), fetch))
  }

  /**
   * The intended URL path downloads at most once, never when the descriptor
   * could not be fetched or decoded, and only ever the game the link names.
   */
  lemma IntendedUpdatesLinkedGame(lib: seq<Json>, arg: string, typed: string, descriptorAt: string -> DescriptorFetch, fetch: string -> Response)
    ensures var fetched := descriptorAt(LinkUrl(arg, typed));
      var run := RunWithUrlIntended(lib, arg, typed, descriptorAt, fetch).1;
      var sel := UrlSelection(lib, fetched);
      |run.reports| <= 1 &&
      (run.reports != [] ==>
        fetched.Body? && fetched.decoded.Some? && PyEq(sel[0], fetched.decoded.value) && run.reports[0] == Install(sel[0], fetch))
  {
    var fetched := descriptorAt(LinkUrl(arg, typed));
    var sel := UrlSelection(lib, fetched);
    if sel != [] {
      assert sel[0] in sel;
    }
  }
}

=== FILE: pystr.dfy ===
/**
 * The Python string built-ins the updater relies on: `str.split(sep)`,
 * `str.strip()`, `int(str)`, the substring test `p in t` and
 * `str.replace(old, new)`.
 */
module PyStr {
  import opened Wrappers

  /** The characters `str.isspace()` accepts, hence those `str.strip()` removes. */
  predicate IsSpace(c: char) {
    || ('\t' <= c <= '\r')
    || ('\U{1C}' <= c <= '\U{1F}')
    || c == ' ' || c == '\U{85}' || c == '\U{A0}' || c == '\U{1680}'
    || ('\U{2000}' <= c <= '\U{200A}')
    || c == '\U{2028}' || c == '\U{2029}' || c == '\U{202F}' || c == '\U{205F}' || c == '\U{3000}'
  }

  predicate NoSpace(s: string) {
    forall k :: 0 <= k < |s| ==> !IsSpace(s[k])
  }

  /** Leading whitespace removed: what is left is a suffix, and only spaces went. */
  function StripLeft(s: string): (r: string)
    ensures |r| <= |s| && r == s[|s| - |r|..]
    ensures forall k :: 0 <= k < |s| - |r| ==> IsSpace(s[k])
    ensures r == [] || !IsSpace(r[0])
  {
    if s != [] && IsSpace(s[0]) then StripLeft(s[1..]) else s
  }

  /** Trailing whitespace removed: what is left is a prefix, and only spaces went. */
  function StripRight(s: string): (r: string)
    ensures |r| <= |s| && r == s[..|r|]
    ensures forall k :: |r| <= k < |s| ==> IsSpace(s[k])
    ensures r == [] || !IsSpace(r[|r| - 1])
  {
    if s != [] && IsSpace(s[|s| - 1]) then StripRight(s[..|s| - 1]) else s
  }

  /** `s.strip()`. */
  function Strip(s: string): (r: string)
    ensures |r| <= |s|
    ensures r == [] || (!IsSpace(r[0]) && !IsSpace(r[|r| - 1]))
    ensures NoSpace(s) ==> r == s
  {
    StripRight(StripLeft(s))
  }

  /** Leading whitespace in front of a token that does not start with one goes. */
  lemma {:induction false} StripLeftPadded(pre: string, u: string)
    requires forall k :: 0 <= k < |pre| ==> IsSpace(pre[k])
    requires u == [] || !IsSpace(u[0])
    ensures StripLeft(pre + u) == u
  {
    if pre != [] {
      assert (pre + u)[1..] == pre[1..] + u;
      StripLeftPadded(pre[1..], u);
    } else {
      assert pre + u == u;
    }
  }

  /** Trailing whitespace after a token that does not end with one goes. */
  lemma {:induction false} StripRightPadded(u: string, post: string)
    requires forall k :: 0 <= k < |post| ==> IsSpace(post[k])
    requires u == [] || !IsSpace(u[|u| - 1])
    ensures StripRight(u + post) == u
  {
    if post != [] {
      assert (u + post)[..|u + post| - 1] == u + post[..|post| - 1];
      StripRightPadded(u, post[..|post| - 1]);
    } else {
      assert u + post == u;
    }
  }

  /** Whitespace around a token does not matter: `" 3 ".strip() == "3"`. */
  lemma StripPadded(pre: string, t: string, post: string)
    requires forall k :: 0 <= k < |pre| ==> IsSpace(pre[k])
    requires forall k :: 0 <= k < |post| ==> IsSpace(post[k])
    requires t == [] || (!IsSpace(t[0]) && !IsSpace(t[|t| - 1]))
    ensures Strip(pre + t + post) == t
  {
    if t == [] {
      var s := pre + t + post;
      assert forall k :: 0 <= k < |s| ==> IsSpace(s[k]);
      assert StripLeft(s) == [];
    } else {
      assert pre + t + post == pre + (t + post);
      StripLeftPadded(pre, t + post);
      StripRightPadded(t, post);
    }
  }

  // ---------------------------------------------------------------- split

  /**
   * `s.split(sep)` for a one-character separator: always at least one piece
   * (`"".split(",") == [""]`), and no piece holds the separator.
   */
  function Split(s: string, sep: char): (r: seq<string>)
    ensures |r| >= 1
    ensures forall t :: t in r ==> sep !in t
  {
    if s == [] then [[]]
    else
      var rest := Split(s[1..], sep);
      if s[0] == sep then [[]] + rest else [[s[0]] + rest[0]] + rest[1..]
  }

  /** `sep.join(ts)`. */
  function Join(ts: seq<string>, sep: char): string
    requires |ts| >= 1
  {
    if |ts| == 1 then ts[0] else ts[0] + [sep] + Join(ts[1..], sep)
  }

  /** Splitting loses nothing: joining the pieces gives back the input. */
  lemma {:induction false} JoinSplit(s: string, sep: char)
    ensures Join(Split(s, sep), sep) == s
  {
    if s != [] {
      JoinSplit(s[1..], sep);
      if s[0] == sep {
        JoinSplitSep(s, sep);
      } else if |Split(s[1..], sep)| == 1 {
        JoinSplitSingle(s, sep);
      } else {
        JoinSplitKept(s, sep);
      }
    }
  }

  /** The step of JoinSplit where the first character is a separator. */
  lemma {:induction false} JoinSplitSep(s: string, sep: char)
    requires s != [] && s[0] == sep
    requires Join(Split(s[1..], sep), sep) == s[1..]
    ensures Join(Split(s, sep), sep) == s
  {
    var rest := Split(s[1..], sep);
    var r := Split(s, sep);
    assert |r| > 1 && r[0] == [] && r[1..] == rest by {
      assert r == [[]] + rest;
    }
    assert Join(r, sep) == r[0] + [sep] + Join(r[1..], sep);
    assert [] + [sep] + s[1..] == s;
  }

  /** The step of JoinSplit where the rest is one piece. */
  lemma {:induction false} JoinSplitSingle(s: string, sep: char)
    requires s != [] && s[0] != sep && |Split(s[1..], sep)| == 1
    requires Join(Split(s[1..], sep), sep) == s[1..]
    ensures Join(Split(s, sep), sep) == s
  {
    var rest := Split(s[1..], sep);
    assert Split(s, sep) == [[s[0]] + rest[0]];
    assert s == [s[0]] + s[1..];
  }

  /** The step of JoinSplit where the first character joins the first piece of several. */
  lemma {:induction false} JoinSplitKept(s: string, sep: char)
    requires s != [] && s[0] != sep && |Split(s[1..], sep)| != 1
    requires Join(Split(s[1..], sep), sep) == s[1..]
    ensures Join(Split(s, sep), sep) == s
  {
    var rest := Split(s[1..], sep);
    var r := Split(s, sep);
    var head, tail := rest[0], rest[1..];
    assert |r| > 1 && r[0] == [s[0]] + head && r[1..] == tail by {
      assert r == [[s[0]] + head] + tail;
    }
    assert Join(r, sep) == ([s[0]] + head) + [sep] + Join(tail, sep);
    assert Join(rest, sep) == head + [sep] + Join(tail, sep);
    ConsAssoc(s[0], head, [sep], Join(tail, sep));
    assert s == [s[0]] + s[1..];
  }

  lemma ConsAssoc(c: char, x: string, y: string, z: string)
    ensures ([c] + x) + y + z == [c] + (x + y + z)
  {
  }

  /** A text without the separator is one piece. */
  lemma {:induction false} SplitNoSep(u: string, sep: char)
    requires sep !in u
    ensures Split(u, sep) == [u]
  {
    if u != [] {
      SplitNoSep(u[1..], sep);
      assert [u[0]] + u[1..] == u;
    }
  }

  /** The first piece ends at the first separator. */
  lemma {:induction false} SplitAtFirst(u: string, sep: char, v: string)
    requires sep !in u
    ensures Split(u + [sep] + v, sep) == [u] + Split(v, sep)
  {
    if u == [] {
      assert ([] + [sep] + v)[1..] == v;
    } else {
      assert (u + [sep] + v)[1..] == u[1..] + [sep] + v;
      SplitAtFirst(u[1..], sep, v);
      assert [u[0]] + u[1..] == u;
    }
  }

  /** Splitting at a separator splits the two sides independently. */
  lemma {:induction false} SplitConcat(u: string, sep: char, v: string)
    ensures Split(u + [sep] + v, sep) == Split(u, sep) + Split(v, sep)
  {
    if u == [] {
      assert ([] + [sep] + v)[1..] == v;
    } else {
      assert (u + [sep] + v)[1..] == u[1..] + [sep] + v;
      SplitConcat(u[1..], sep, v);
    }
  }

  /** Joining pieces free of the separator and splitting again gives the pieces. */
  lemma {:induction false} SplitJoin(ts: seq<string>, sep: char)
    requires |ts| >= 1
    requires forall t :: t in ts ==> sep !in t
    ensures Split(Join(ts, sep), sep) == ts
  {
    if |ts| == 1 {
      SplitNoSep(ts[0], sep);
    } else {
      SplitJoin(ts[1..], sep);
      SplitAtFirst(ts[0], sep, Join(ts[1..], sep));
      assert ts == [ts[0]] + ts[1..];
    }
  }

  /**
   * The last piece of a split is the text after the last separator: a suffix
   * of the input that is either all of it or preceded by the separator.
   */
  lemma {:induction false} SplitLast(s: string, sep: char)
    ensures var l := Split(s, sep)[|Split(s, sep)| - 1];
      |l| <= |s| && l == s[|s| - |l|..] && (|l| == |s| || s[|s| - |l| - 1] == sep)
  {
    if s != [] {
      var rest := Split(s[1..], sep);
      SplitLast(s[1..], sep);
      var r := Split(s, sep);
      if s[0] == sep {
        assert r[|r| - 1] == rest[|rest| - 1];
      } else if |rest| == 1 {
        JoinSplit(s[1..], sep);
        assert r == [[s[0]] + s[1..]];
        assert [s[0]] + s[1..] == s;
      } else {
        assert r[|r| - 1] == rest[|rest| - 1];
        if |rest[|rest| - 1]| == |s| - 1 {
          SplitNoSep(s[1..], sep);
        }
      }
    }
  }

  // ---------------------------------------------------------------- int()

  predicate IsDigit(c: char) {
    '0' <= c <= '9'
  }

  predicate AllDigits(d: string) {
    forall k :: 0 <= k < |d| ==> IsDigit(d[k])
  }

  /** The value of a run of decimal digits, most significant first. */
  function DigitsValue(d: string): nat
    requires AllDigits(d)
  {
    if d == [] then 0 else DigitsValue(d[..|d| - 1]) * 10 + (d[|d| - 1] as int - '0' as int)
  }

  /**
   * `int(t)` on an already stripped token: an optional sign followed by one
   * or more ASCII digits; anything else (including the empty token) is the
   * ValueError the source catches.
   */
  function ParseInt(t: string): (r: Option<int>)
    ensures r.Some? <==>
      (t != [] && if t[0] == '-' || t[0] == '+' then |t| >= 2 && AllDigits(t[1..]) else AllDigits(t))
    ensures r.Some? && t[0] == '-' ==> r.value <= 0
    ensures r.Some? && t[0] != '-' ==> r.value >= 0
  {
    if t == [] then None
    else if t[0] == '-' || t[0] == '+' then
      var d := t[1..];
      if d != [] && AllDigits(d) then
        var v: int := DigitsValue(d);
        Some(if t[0] == '-' then -v else v)
      else None
    else if AllDigits(t) then Some(DigitsValue(t))
    else None
  }

  function DigitChar(n: nat): char
    requires n < 10
  {
    ('0' as int + n) as char
  }

  /** `str(n)` for a natural number. */
  function FormatNat(n: nat): (r: string)
    ensures r != [] && AllDigits(r)
  {
    if n < 10 then [DigitChar(n)] else FormatNat(n / 10) + [DigitChar(n % 10)]
  }

  /** `str(n)`. */
  function FormatInt(n: int): (r: string)
    ensures r != [] && NoSpace(r) && ',' !in r
  {
    var r := if n < 0 then "-" + FormatNat(-n) else FormatNat(n);
    assert forall k :: 0 <= k < |r| ==> IsDigit(r[k]) || r[k] == '-';
    r
  }

  lemma {:induction false} FormatNatValue(n: nat)
    ensures DigitsValue(FormatNat(n)) == n
  {
    if n >= 10 {
      var f := FormatNat(n / 10) + [DigitChar(n % 10)];
      assert f[..|f| - 1] == FormatNat(n / 10);
      FormatNatValue(n / 10);
    }
  }

  /** `int(str(n)) == n`: the numbers a user types read back as themselves. */
  lemma {:induction false} ParseFormat(n: int)
    ensures ParseInt(FormatInt(n)) == Some(n)
  {
    var t := FormatInt(n);
    if n < 0 {
      var d := FormatNat(-n);
      FormatNatValue(-n);
      assert t == "-" + d && t[0] == '-' && t[1..] == d;
      assert d != [] && AllDigits(d);
      var v: int := DigitsValue(d);
      assert ParseInt(t) == Some(-v);
    } else {
      FormatNatValue(n);
      assert t == FormatNat(n) && AllDigits(t);
      assert IsDigit(t[0]);
      assert t[0] != '-' && t[0] != '+';
      assert ParseInt(t) == Some(DigitsValue(t));
    }
  }

  /** A leading zero does not change the value: `int("07") == 7`. */
  lemma {:induction false} ParseLeadingZero(n: nat)
    ensures ParseInt("0" + FormatInt(n)) == Some(n)
  {
    var d := FormatNat(n);
    FormatNatValue(n);
    DigitsLeadingZero(d);
    var t := "0" + d;
    assert t[0] == '0';
    assert ParseInt(t) == Some(DigitsValue(t));
  }

  /** A leading `+` does not change the value: `int("+3") == 3`. */
  lemma {:induction false} ParsePlus(n: nat)
    ensures ParseInt("+" + FormatInt(n)) == Some(n)
  {
    var d := FormatNat(n);
    FormatNatValue(n);
    var t := "+" + d;
    assert t[0] == '+' && t[1..] == d;
  }

  lemma {:induction false} DigitsLeadingZero(d: string)
    requires AllDigits(d)
    ensures AllDigits("0" + d) && DigitsValue("0" + d) == DigitsValue(d)
    decreases |d|
  {
    var e := "0" + d;
    assert forall k :: 0 < k < |e| ==> e[k] == d[k - 1];
    if d != [] {
      var p := d[..|d| - 1];
      assert e[..|e| - 1] == "0" + p;
      assert AllDigits(p);
      DigitsLeadingZero(p);
    }
  }

  // ---------------------------------------------------------------- p in t

  /** `p` occurs in `t` starting at position `i`. */
  predicate HasAt(t: string, i: nat, p: string) {
    i + |p| <= |t| && t[i..i + |p|] == p
  }

  /** Python's substring test `p in t`. */
  function Contains(t: string, p: string): (b: bool)
    ensures b <==> exists i: nat :: HasAt(t, i, p)
    decreases |t|
  {
    if |t| < |p| then false
    else if t[..|p|] == p then
      assert HasAt(t, 0, p);
      true
    else
      ShiftOccurrence(t, p);
      Contains(t[1..], p)
  }

  /** Past a mismatch at the front, `p` occurs in `t` iff it occurs in `t[1..]`. */
  lemma ShiftOccurrence(t: string, p: string)
    requires |t| >= |p| && !HasAt(t, 0, p)
    ensures (exists i: nat :: HasAt(t, i, p)) <==> (exists i: nat :: HasAt(t[1..], i, p))
  {
    forall i: nat | HasAt(t[1..], i, p) ensures HasAt(t, i + 1, p) {
      assert t[1..][i..i + |p|] == t[i + 1..i + 1 + |p|];
    }
    forall i: nat | HasAt(t, i, p) ensures HasAt(t[1..], i - 1, p) {
      assert t[1..][i - 1..i - 1 + |p|] == t[i..i + |p|];
    }
  }

  // ---------------------------------------------------------------- replace

  /**
   * `s.replace(pat, rep)`: scanning left to right, each occurrence of `pat`
   * that does not overlap an earlier replaced one becomes `rep`. Text shorter
   * than the pattern is kept, and a replacement no longer than the pattern
   * never lengthens the text.
   */
  function ReplaceAll(s: string, pat: string, rep: string): (r: string)
    requires pat != []
    ensures |s| < |pat| ==> r == s
    ensures |rep| <= |pat| ==> |r| <= |s|
    decreases |s|
  {
    if |s| < |pat| then s
    else if s[..|pat|] == pat then rep + ReplaceAll(s[|pat|..], pat, rep)
    else [s[0]] + ReplaceAll(s[1..], pat, rep)
  }

  /**
   * The first occurrence of the pattern, wherever it is, becomes the
   * replacement: the text before it is kept and the scan goes on after it.
   * No occurrence starts inside `u` exactly when `u` followed by all of
   * `pat` but its last character does not contain `pat`.
   */
  lemma {:induction false} ReplaceAtFirst(u: string, pat: string, rep: string, v: string)
    requires pat != []
    requires !Contains(u + pat[..|pat| - 1], pat)
    ensures ReplaceAll(u + pat + v, pat, rep) == u + rep + ReplaceAll(v, pat, rep)
    decreases |u|
  {
    if u == [] {
      ReplaceHit(pat, rep, v);
    } else {
      NoOccurrenceInTail(u, pat);
      ReplaceAtFirst(u[1..], pat, rep, v);
      ReplaceStep(u, pat, rep, v);
    }
  }

  lemma {:induction false} ReplaceHit(pat: string, rep: string, v: string)
    requires pat != []
    ensures ReplaceAll(pat + v, pat, rep) == [] + rep + ReplaceAll(v, pat, rep)
  {
    var s := pat + v;
    assert s[..|pat|] == pat && s[|pat|..] == v;
  }

  /** Dropping the first character of text without the pattern leaves text without it. */
  lemma {:induction false} NoOccurrenceInTail(u: string, pat: string)
    requires pat != [] && u != []
    requires !Contains(u + pat[..|pat| - 1], pat)
    ensures !Contains(u[1..] + pat[..|pat| - 1], pat)
  {
    var w := u + pat[..|pat| - 1];
    assert w[1..] == u[1..] + pat[..|pat| - 1];
    assert !HasAt(w, 0, pat);
    ShiftOccurrence(w, pat);
  }

  /** A first character that starts no occurrence is kept in front of the rest's replacement. */
  lemma {:induction false} ReplaceStep(u: string, pat: string, rep: string, v: string)
    requires pat != [] && u != []
    requires !Contains(u + pat[..|pat| - 1], pat)
    requires ReplaceAll(u[1..] + pat + v, pat, rep) == u[1..] + rep + ReplaceAll(v, pat, rep)
    ensures ReplaceAll(u + pat + v, pat, rep) == u + rep + ReplaceAll(v, pat, rep)
  {
    var s := u + pat + v;
    assert s[..|pat|] != pat by {
      var w := u + pat[..|pat| - 1];
      assert !HasAt(w, 0, pat);
      assert s[..|pat|] == w[..|pat|];
    }
    assert s[0] == u[0] && s[1..] == u[1..] + pat + v;
    ReplaceMiss(s, pat, rep);
    ConsFront(u, rep, ReplaceAll(v, pat, rep));
  }

  lemma ConsFront(a: string, b: string, c: string)
    requires a != []
    ensures [a[0]] + (a[1..] + b + c) == a + b + c
  {
    assert [a[0]] + a[1..] == a;
  }

  /** Text whose front is not the pattern keeps its first character. */
  lemma {:induction false} ReplaceMiss(s: string, pat: string, rep: string)
    requires pat != [] && |s| >= |pat| && s[..|pat|] != pat
    ensures ReplaceAll(s, pat, rep) == [s[0]] + ReplaceAll(s[1..], pat, rep)
  {
  }

  /** Text that does not contain the pattern is returned unchanged. */
  lemma {:induction false} ReplaceAbsent(s: string, pat: string, rep: string)
    requires pat != []
    requires !Contains(s, pat)
    ensures ReplaceAll(s, pat, rep) == s
    decreases |s|
  {
    if |s| >= |pat| {
      assert !HasAt(s, 0, pat);
      ShiftOccurrence(s, pat);
      ReplaceAbsent(s[1..], pat, rep);
      assert [s[0]] + s[1..] == s;
    }
  }
}

=== FILE: registry.dfy ===
/**
 * `create_reg_file_for_pyinstaller` in update.py: the text of the `.reg` file
 * that registers the custom URL scheme with Windows.
 */
module Registry {

  /** How many times `c` occurs in `s`. */
  function Count(s: string, c: char): nat {
    if s == [] then 0 else (if s[0] == c then 1 else 0) + Count(s[1..], c)
  }

  /** `s.replace("\\", "\\\\")`: every backslash doubled. */
  function EscapeBackslashes(s: string): (r: string)
    ensures |r| == |s| + Count(s, '\\')
    ensures Count(r, '\\') == 2 * Count(s, '\\')
  {
    if s == [] then []
    else
      var rest := EscapeBackslashes(s[1..]);
      var head := if s[0] == '\\' then "\\\\" else [s[0]];
      CountAppend(head, rest, '\\');
      head + rest
  }

  lemma {:induction false} CountAppend(a: string, b: string, c: char)
    ensures Count(a + b, c) == Count(a, c) + Count(b, c)
  {
    if a != [] {
      assert (a + b)[1..] == a[1..] + b;
      CountAppend(a[1..], b, c);
    } else {
      assert a + b == b;
    }
  }

  /**
   * How a string value in a `.reg` file is read back: `\\` stands for a
   * backslash and `\"` for a quote; any other character stands for itself.
   * A quote with no backslash before it would end the value in a real
   * `.reg` file, so this reading (and CommandValue's read-back) matches the
   * registry editor only for an executable path without `"`, which Windows
   * file names cannot contain.
   */
  function RegUnescape(v: string): string
    decreases |v|
  {
    if v == [] then []
    else if |v| >= 2 && v[0] == '\\' && (v[1] == '\\' || v[1] == '"') then [v[1]] + RegUnescape(v[2..])
    else [v[0]] + RegUnescape(v[1..])
  }

  /** Undoubling recovers the input: escaping loses nothing, whatever follows it. */
  lemma {:induction false} UnescapeAfterEscape(s: string, t: string)
    ensures RegUnescape(EscapeBackslashes(s) + t) == s + RegUnescape(t)
  {
    if s != [] {
      var rest := EscapeBackslashes(s[1..]);
      UnescapeAfterEscape(s[1..], t);
      if s[0] == '\\' {
        assert EscapeBackslashes(s) + t == "\\\\" + (rest + t);
      } else {
        assert EscapeBackslashes(s) + t == [s[0]] + (rest + t);
      }
      assert [s[0]] + s[1..] == s;
    } else {
      assert EscapeBackslashes(s) + t == t;
    }
  }

  lemma EscapeRoundTrip(s: string)
    ensures RegUnescape(EscapeBackslashes(s)) == s
  {
    UnescapeAfterEscape(s, []);
    assert EscapeBackslashes(s) + [] == EscapeBackslashes(s);
  }

  /**
   * The default value of the `shell\open\command` key, as written between its
   * quotes. Windows reads it back as the executable path in quotes followed
   * by `"%1"`, the URL being launched.
   */
  function CommandValue(exePath: string): (r: string)
    ensures RegUnescape(r) == "\"" + exePath + "\" \"%1\""
  {
    var tail := "\\\" \\\"%1\\\"";
    UnescapeAfterEscape(exePath, tail);
    TailReadsBack();
    var r := "\\\"" + (EscapeBackslashes(exePath) + tail);
    assert RegUnescape(r) == "\"" + RegUnescape(EscapeBackslashes(exePath) + tail);
    r
  }

  /** The `@=` line that sets the command, and the last line of the file. */
  function CommandLine(exePath: string): string {
    "@=\"" + CommandValue(exePath) + "\"\n"
  }

  /**
   * The whole `.reg` file for the scheme `protocol` launching `exePath`: it
   * opens with the header the registry editor requires and ends with the
   * line that sets the command.
   */
  function RegFile(protocol: string, exePath: string): (f: string)
    ensures |f| >= 38 && f[..38] == "Windows Registry Editor Version 5.00\n\n"
    ensures |f| >= |CommandLine(exePath)| && f[|f| - |CommandLine(exePath)|..] == CommandLine(exePath)
  {
    var header := "Windows Registry Editor Version 5.00\n\n";
    var keys :=
      "[HKEY_CLASSES_ROOT\\" + protocol + "]\n"
      + "@=\"ShredSpace\"\n"
      + "\"URL Protocol\"=\"\"\n\n"
      + "[HKEY_CLASSES_ROOT\\" + protocol + "\\shell]\n\n"
      + "[HKEY_CLASSES_ROOT\\" + protocol + "\\shell\\open]\n\n"
      + "[HKEY_CLASSES_ROOT\\" + protocol + "\\shell\\open\\command]\n";
    var f := header + keys + CommandLine(exePath);
    assert f[..|header|] == header;
    f
  }

  lemma TailReadsBack()
    ensures RegUnescape("\\\" \\\"%1\\\"") == "\" \"%1\""
  {
  }
}

=== FILE: selection.dfy ===
/**
 * What the user's typed selection means. `ask_user_for_selection` is the same
 * code in update.py and updator.py and is modelled once here; update.py's
 * `ask_user_uninstall` parses the same way but hands back the raw indices.
 */
module Selection {
  import opened Wrappers
  import opened Json
  import opened PyStr

  /**
   * The menu printed before the prompt: `game['displayName']` of every entry,
   * in library order. Python raises (uncaught) on an entry that is not a dict
   * with that key, so the menu, and the prompt after it, never appear.
   */
  function Menu(lib: seq<Json>): (r: Option<seq<Json>>)
    ensures r.Some? <==> forall i :: 0 <= i < |lib| ==> Field(lib[i], "displayName").Some?
    ensures r.Some? ==> |r.value| == |lib|
    ensures r.Some? ==> forall i :: 0 <= i < |lib| ==> r.value[i] == lib[i].fields["displayName"]
  {
    if lib == [] then Some([])
    else
      match (Field(lib[0], "displayName"), Menu(lib[1..]))
      case (Some(name), Some(rest)) =>
        assert forall i :: 1 <= i < |lib| ==> lib[i] == lib[1..][i - 1];
        Some([name] + rest)
      case _ => None
  }

  /** `[int(t.strip()) - 1 for t in tokens]`, or None on the first ValueError. */
  function ParseTokens(tokens: seq<string>): (r: Option<seq<int>>)
    ensures r.Some? ==> |r.value| == |tokens|
  {
    if tokens == [] then Some([])
    else
      var head := ParseInt(Strip(tokens[0]));
      var rest := ParseTokens(tokens[1..]);
      if head.None? || rest.None? then None
      else Some([head.value - 1] + rest.value)
  }

  /** The 0-based indices the user typed, comma-separated and 1-based: one per piece. */
  function ParseIndices(input: string): (r: Option<seq<int>>)
    ensures r.Some? ==> |r.value| == |Split(input, ',')|
  {
    ParseTokens(Split(input, ','))
  }

  /** `[lib[i] for i in indices if 0 <= i < len(lib)]`. */
  function Pick(lib: seq<Json>, indices: seq<int>): (r: seq<Json>)
    ensures |r| <= |indices|
    ensures forall g :: g in r ==> g in lib
  {
    if indices == [] then []
    else
      var i := indices[0];
      (if 0 <= i < |lib| then [lib[i]] else []) + Pick(lib, indices[1..])
  }

  /**
   * `ask_user_for_selection` once the menu has been shown: no more games than
   * pieces typed, and only library entries.
   */
  function AskForSelection(lib: seq<Json>, input: string): (r: seq<Json>)
    ensures |r| <= |Split(input, ',')|
    ensures forall g :: g in r ==> g in lib
  {
    match ParseIndices(input)
    case None => []
    case Some(indices) => Pick(lib, indices)
  }

  /**
   * `ask_user_uninstall` once the menu has been shown: the unfiltered indices,
   * one per piece typed, or none at all when a piece is not a number.
   */
  function AskUninstall(input: string): (r: seq<int>)
    ensures r == [] || |r| == |Split(input, ',')|
    ensures ParseIndices(input).None? ==> r == []
    ensures ParseIndices(input).Some? ==> r == ParseIndices(input).value
  {
    ParseIndices(input).GetOr([])
  }

  // ---------------------------------------------------------------- properties

  /** Parsing fails exactly when some token is not an integer. */
  lemma {:induction false} ParseTokensFails(tokens: seq<string>)
    ensures ParseTokens(tokens).None? <==> exists j :: 0 <= j < |tokens| && ParseInt(Strip(tokens[j])).None?
  {
    if tokens != [] {
      var rest := tokens[1..];
      ParseTokensFails(rest);
      if ParseInt(Strip(tokens[0])).Some? {
        if exists j :: 0 <= j < |tokens| && ParseInt(Strip(tokens[j])).None? {
          var j :| 0 <= j < |tokens| && ParseInt(Strip(tokens[j])).None?;
          assert tokens[j] == rest[j - 1];
        }
        if exists j :: 0 <= j < |rest| && ParseInt(Strip(rest[j])).None? {
          var j :| 0 <= j < |rest| && ParseInt(Strip(rest[j])).None?;
          assert rest[j] == tokens[j + 1];
        }
      }
    }
  }

  /** A successful parse holds, for each token, its value minus one. */
  lemma {:induction false} ParseTokensValues(tokens: seq<string>)
    requires ParseTokens(tokens).Some?
    ensures forall j :: 0 <= j < |tokens| ==> ParseInt(Strip(tokens[j])) == Some(ParseTokens(tokens).value[j] + 1)
  {
    if tokens != [] {
      var rest := tokens[1..];
      ParseTokensValues(rest);
      var r := ParseTokens(tokens).value;
      forall j | 0 <= j < |tokens| ensures ParseInt(Strip(tokens[j])) == Some(r[j] + 1) {
        if j > 0 {
          assert tokens[j] == rest[j - 1] && r[j] == ParseTokens(rest).value[j - 1];
        }
      }
    }
  }

  /**
   * One token that is not an integer (an empty one included) empties the
   * whole selection, for update and for uninstall alike.
   */
  lemma BadTokenSelectsNothing(lib: seq<Json>, input: string, j: int)
    requires 0 <= j < |Split(input, ',')| && ParseInt(Strip(Split(input, ',')[j])).None?
    ensures ParseIndices(input).None?
    ensures AskForSelection(lib, input) == [] && AskUninstall(input) == []
  {
    ParseTokensFails(Split(input, ','));
  }

  /** Pressing Enter at the prompt selects nothing. */
  lemma EmptyInputSelectsNothing(lib: seq<Json>)
    ensures AskForSelection(lib, "") == [] && AskUninstall("") == []
  {
    assert Split("", ',') == [""];
    BadTokenSelectsNothing(lib, "", 0);
  }

  /** Selection respects the order of the indices: it distributes over concatenation. */
  lemma {:induction false} PickAppend(lib: seq<Json>, a: seq<int>, b: seq<int>)
    ensures Pick(lib, a + b) == Pick(lib, a) + Pick(lib, b)
  {
    if a != [] {
      assert (a + b)[1..] == a[1..] + b;
      PickAppend(lib, a[1..], b);
    } else {
      assert a + b == b;
    }
  }

  /** In-range indices each select their entry, in the typed order, repeats kept. */
  lemma {:induction false} PickInRange(lib: seq<Json>, indices: seq<int>)
    requires forall j :: 0 <= j < |indices| ==> 0 <= indices[j] < |lib|
    ensures |Pick(lib, indices)| == |indices|
    ensures forall j :: 0 <= j < |indices| ==> Pick(lib, indices)[j] == lib[indices[j]]
  {
    if indices != [] {
      PickInRange(lib, indices[1..]);
    }
  }

  /** Out-of-range indices are dropped without a trace. */
  lemma {:induction false} PickOutOfRange(lib: seq<Json>, indices: seq<int>)
    requires forall j :: 0 <= j < |indices| ==> !(0 <= indices[j] < |lib|)
    ensures Pick(lib, indices) == []
  {
    if indices != [] {
      PickOutOfRange(lib, indices[1..]);
    }
  }

  /** `", ".join(str(k) for k in ks)` with plain commas: what a user types to choose `ks`. */
  function Typed(ks: seq<int>): (r: string)
    requires |ks| >= 1
  {
    Join(Numerals(ks), ',')
  }

  function Numerals(ks: seq<int>): (r: seq<string>)
    ensures |r| == |ks|
    ensures forall j :: 0 <= j < |ks| ==> r[j] == FormatInt(ks[j])
  {
    if ks == [] then [] else [FormatInt(ks[0])] + Numerals(ks[1..])
  }

  /** `[k - 1 for k in ks]`. */
  function Decrement(ks: seq<int>): (r: seq<int>)
    ensures |r| == |ks| && forall j :: 0 <= j < |ks| ==> r[j] == ks[j] - 1
  {
    if ks == [] then [] else [ks[0] - 1] + Decrement(ks[1..])
  }

  /** Typing the numbers `ks` parses to exactly the indices `k - 1`. */
  lemma ParseTyped(ks: seq<int>)
    requires |ks| >= 1
    ensures ParseIndices(Typed(ks)) == Some(Decrement(ks))
  {
    var ts := Numerals(ks);
    SplitJoin(ts, ',');
    ParseNumerals(ks);
  }

  lemma {:induction false} ParseNumerals(ks: seq<int>)
    ensures ParseTokens(Numerals(ks)) == Some(Decrement(ks))
  {
    if ks != [] {
      var t := FormatInt(ks[0]);
      var ts := Numerals(ks[1..]);
      TokenOfFormat(ks[0]);
      ParseNumerals(ks[1..]);
      var all := Numerals(ks);
      assert all == [t] + ts;
      assert all[0] == t && all[1..] == ts;
      assert Decrement(ks) == [ks[0] - 1] + Decrement(ks[1..]);
    }
  }

  /** A number written out reads back as itself, surrounding `strip` included. */
  lemma TokenOfFormat(n: int)
    ensures ParseInt(Strip(FormatInt(n))) == Some(n)
  {
    ParseFormat(n);
  }

  /**
   * The update selection for typed numbers `ks`: `lib[k - 1]` for each `k`
   * with `1 <= k <= len(lib)`, in the typed order and with repeats.
   */
  lemma SelectTyped(lib: seq<Json>, ks: seq<int>)
    requires |ks| >= 1
    ensures AskForSelection(lib, Typed(ks)) == Pick(lib, Decrement(ks))
    ensures (forall j :: 0 <= j < |ks| ==> 1 <= ks[j] <= |lib|) ==>
      |AskForSelection(lib, Typed(ks))| == |ks| &&
      forall j :: 0 <= j < |ks| ==> AskForSelection(lib, Typed(ks))[j] == lib[ks[j] - 1]
  {
    ParseTyped(ks);
    SelectParsed(lib, Typed(ks), Decrement(ks));
    if forall j :: 0 <= j < |ks| ==> 1 <= ks[j] <= |lib| {
      PickDecremented(lib, ks);
    }
  }

  /** Helper of SelectTyped: the selection is the pick of whatever the input parses to. */
  /**
   * A successful parse is what the uninstall prompt returns, unfiltered:
   * negative and out-of-range indices included.
   */
  lemma AskUninstallParsed(input: string, indices: seq<int>)
    requires ParseIndices(input) == Some(indices)
    ensures AskUninstall(input) == indices
    ensures |indices| == |Split(input, ',')|
  {
  }

  lemma SelectParsed(lib: seq<Json>, input: string, indices: seq<int>)
    requires ParseIndices(input) == Some(indices)
    ensures AskForSelection(lib, input) == Pick(lib, indices)
  {
  }

  /** Helper of SelectTyped: 1-based numbers in range pick `lib[k - 1]` each. */
  lemma PickDecremented(lib: seq<Json>, ks: seq<int>)
    requires forall j :: 0 <= j < |ks| ==> 1 <= ks[j] <= |lib|
    ensures |Pick(lib, Decrement(ks))| == |ks|
    ensures forall j :: 0 <= j < |ks| ==> Pick(lib, Decrement(ks))[j] == lib[ks[j] - 1]
  {
    PickInRange(lib, Decrement(ks));
  }

  /** What a user types to choose the first and third games. */
  lemma TypedOneThree()
    ensures Typed([1, 3]) == "1,3"
  {
    assert FormatInt(1) == "1" && FormatInt(3) == "3";
    assert Numerals([1, 3]) == ["1", "3"];
    assert ["1", "3"][1..] == ["3"];
  }

  /** Typing two numbers in range selects those two games, in typed order. */
  lemma SelectTypedPair(lib: seq<Json>, k1: int, k2: int)
    requires 1 <= k1 <= |lib| && 1 <= k2 <= |lib|
    ensures AskForSelection(lib, Typed([k1, k2])) == [lib[k1 - 1], lib[k2 - 1]]
  {
    ParseTyped([k1, k2]);
    DecrementPair(k1, k2);
    SelectPair(lib, Typed([k1, k2]), [k1 - 1, k2 - 1]);
  }

  lemma DecrementPair(k1: int, k2: int)
    ensures Decrement([k1, k2]) == [k1 - 1, k2 - 1]
  {
    var d := Decrement([k1, k2]);
    assert d[0] == k1 - 1 && d[1] == k2 - 1;
  }

  /** Helper of SelectTypedPair: two indices in range pick those two games. */
  lemma SelectPair(lib: seq<Json>, input: string, ix: seq<int>)
    requires |ix| == 2 && 0 <= ix[0] < |lib| && 0 <= ix[1] < |lib|
    requires ParseIndices(input) == Some(ix)
    ensures AskForSelection(lib, input) == [lib[ix[0]], lib[ix[1]]]
  {
    assert ix[1..] == [ix[1]] && ix[1..][1..] == [];
    assert Pick(lib, [ix[1]]) == [lib[ix[1]]] + Pick(lib, []);
    assert Pick(lib, ix) == [lib[ix[0]]] + Pick(lib, [ix[1]]);
  }

  /** "1,3" on a three-game library picks the first and the third, in that order. */
  lemma SelectOneAndThree(a: Json, b: Json, c: Json)
    ensures AskForSelection([a, b, c], "1,3") == [a, c]
  {
    TypedOneThree();
    SelectTypedPair([a, b, c], 1, 3);
  }

  /** "5" on a three-game library picks nothing, and is not an error. */
  lemma SelectFiveOfThree(a: Json, b: Json, c: Json)
    ensures AskForSelection([a, b, c], "5") == []
  {
    assert Typed([5]) == "5" by {
      assert FormatInt(5) == "5";
    }
    ParseTyped([5]);
  }

  // ---------------------------------------------------------------- Python indexing

  /** `lst[i]` and `lst.pop(i)` accept `-n <= i < n`; anything else is IndexError. */
  predicate PyIndexValid(i: int, n: nat) {
    -(n as int) <= i < n
  }

  /** The position `lst[i]` refers to: a negative index counts from the end. */
  function PyIndex(i: int, n: nat): (k: nat)
    requires PyIndexValid(i, n)
    ensures k < n
    ensures i >= 0 ==> k == i
    ensures i < 0 ==> k == n + i
  {
    if i < 0 then n + i else i
  }

  /** Typing 0 at the uninstall prompt gives index -1: the last entry. */
  lemma UninstallZeroMeansLast(n: nat)
    requires n >= 1
    ensures AskUninstall("0") == [-1]
    ensures PyIndexValid(-1, n) && PyIndex(-1, n) == n - 1
  {
    assert Typed([0]) == "0" by {
      assert FormatInt(0) == "0";
    }
    ParseTyped([0]);
  }
}

=== FILE: updator.dfy ===
/**
 * updator.py, a stand-alone updater: it reads the library, asks
 * which games to update and downloads them. Its selection and download code
 * is the same as update.py's, so it is modelled by the same functions.
 */
module Updator {
  import opened Json
  import opened PyStr
  import opened Selection
  import opened Download
  import opened Library

  /**
   * The main block: no library, no question; otherwise the selected games are
   * downloaded in turn. There is at most one download per comma-separated
   * piece typed, and each is a library game's.
   */
  function UpdatorRun(lib: seq<Json>, input: string, fetch: string -> Response): (r: Run)
    ensures lib == [] ==> r == Run([], Finished)
    ensures |r.reports| <= |Split(input, ',')|
    ensures forall rep :: rep in r.reports ==> exists g :: g in lib && Arguments(g).Some? && rep == Install(g, fetch)
  {
    if lib == [] then Run([], Finished)
    else if Menu(lib).None? then Run([], Crashed(MissingDisplayName))
    else
      ReportsOfGames(AskForSelection(lib, input), lib, fetch);
      Dispatch(AskForSelection(lib, input), fetch)
  }

  /**
   * On a non-empty library updator.py behaves as update.py's `updateGames()`;
   * on an empty one it downloads nothing where update.py asks and finds nothing.
   */
  lemma UpdatorIsUpdate(lib: seq<Json>, input: string, fetch: string -> Response)
    ensures lib != [] ==> UpdatorRun(lib, input, fetch) == UpdateOf(lib, false, input, fetch)
    ensures UpdatorRun([], input, fetch) == Run([], Finished) && UpdateOf([], false, input, fetch).reports == []
  {
    assert AskForSelection([], input) == [] by {
      if ParseIndices(input).Some? {
        PickOutOfRange([], ParseIndices(input).value);
      }
    }
  }

  /**
   * Typing the numbers `ks`, all on the menu, downloads `lib[k - 1]` for each
   * `k` in typed order (repeats included), each into a folder named after its
   * `name`; the run finishes unless one of them raises.
   */
  lemma UpdatorTyped(lib: seq<Json>, ks: seq<int>, fetch: string -> Response)
    requires |ks| >= 1 && Menu(lib).Some?
    requires forall j :: 0 <= j < |ks| ==> 1 <= ks[j] <= |lib| && Arguments(lib[ks[j] - 1]).Some?
    ensures |UpdatorRun(lib, Typed(ks), fetch).reports| <= |ks|
    ensures forall j :: 0 <= j < |UpdatorRun(lib, Typed(ks), fetch).reports| ==>
      UpdatorRun(lib, Typed(ks), fetch).reports[j] == Install(lib[ks[j] - 1], fetch)
    ensures UpdatorRun(lib, Typed(ks), fetch).halt.Finished? <==>
      forall j :: 0 <= j < |ks| ==> Install(lib[ks[j] - 1], fetch).status != Raised
  {
    assert lib != [] by {
      assert 1 <= ks[0] <= |lib|;
    }
    UpdatorIsUpdate(lib, Typed(ks), fetch);
    UpdateTyped(lib, ks, fetch);
  }

  /** A token that is not an integer means no game is downloaded. */
  lemma UpdatorBadToken(lib: seq<Json>, input: string, j: int, fetch: string -> Response)
    requires Menu(lib).Some?
    requires 0 <= j < |Split(input, ',')| && ParseInt(Strip(Split(input, ',')[j])).None?
    ensures UpdatorRun(lib, input, fetch) == Run([], Finished)
  {
    BadTokenSelectsNothing(lib, input, j);
  }
}

=== FILE: wrappers.dfy ===
/** The optional value used wherever the source may have nothing to return. */
module Wrappers {

  datatype Option<+T> = None | Some(value: T) {

    /** The wrapped value, or the given default when there is none. */
    function GetOr(default: T): T {
      match this
      case Some(v) => v
      case None => default
    }
  }
}
